=== FILE: README.md ===
# Dungeon crawler: a Dafny model of level generation and the frame rules

This project models the core of a small grid-based dungeon crawler written in
Python with pygame. The model has two parts.

- **Level generation** (`generate_dungeon(level)`). A 40 × 30 grid starts as all wall.
  The generator tries `7 + level` random rooms and keeps each one that does not
  overlap a room it already kept. It carves an L-shaped corridor between the
  centres of each pair of consecutive rooms, then carves `3 + level` extra
  L-shaped corridors. The player starts in the first room and the stairs go in
  the last. Enemies and items go only in the middle rooms. Finally
  `10 + 2 * level` obstacle walls are scattered over floor cells.
- **The frame rules of the main loop.** Arrow keys move the player one cell,
  and the move is undone when the player meets a wall. Enemies count down their
  move cooldown. An enemy touching the player trades damage with it. Items
  under the player are picked up. Reaching the stairs regenerates the dungeon.

Every random draw is an explicit input. `Generation.Draws` holds the draws of
one generation, grouped by the loop that consumes them. `Generation.ValidDraws`
states the range of each draw, as the `random.randint` / `random.choice` call
that produces it gives it. Generation and the frame step are then pure
functions, and the lemmas hold for every level and every admissible draw.

Collision is modelled per cell. Every sprite except a wall is created one
pixel inside its tile, and a wall fills its whole tile. The player moves by
whole tiles, so it stays inset, and its rectangle meets a wall, an item or the
stairs exactly when both sit on the same cell. For the same reason, the
obstacle test at line 233 can only hit an obstacle already on that cell.
Obstacles are therefore a set of floor cells. Enemies are inset only at
spawn: a chase step moves them by a fractional number of pixels (lines
80-90). The model keeps enemies on cells after a chase step too, so enemy
contact is modelled as sharing the player's cell (see "Left out").

The finished grid of a level is also given directly, as `Generation.DigLevel`.
A cell is floor exactly when it lies in a kept room, on an L corridor between
two consecutive rooms, or on an extra corridor. `Generation.CarveLevel` runs
the generator's three carving loops in order from an all-wall grid, and its
contract states that they build exactly that grid. `Generation.Generate` uses
`DigLevel`, so the properties of generated levels are stated about the cells
that were dug rather than about the order of carving.

Modules, one per component:

| file | module | contents |
|---|---|---|
| grid.dfy | `Grid` | constants, tiles, the grid, carving rows, columns and blocks |
| paths.dfy | `Paths` | 4-neighbour walks over floor and reachability |
| rooms.dfy | `Rooms` | rooms, draw ranges, the overlap test, the placement loop |
| corridors.dfy | `Corridors` | carving rooms and L corridors, centre-to-centre connectivity |
| actors.dfy | `Actors` | player, enemies, items, pickup and contact rules, enemy cooldown |
| generation.dfy | `Generation` | draws, spawning, obstacles, `Generate` and its properties |
| gameloop.dfy | `GameLoop` | key events, movement, one frame, the stairs, the frame invariant |

Behaviour the model reproduces as written:

- `generate_dungeon` builds a fresh `Player` on every call. The level increment
  and the heal done on reaching the stairs are applied to the old player. The
  new player starts at 100 health, attack 10 and level 1 again. So the first
  climb generates level 2, every later climb generates level 2 again, and
  strength gained from potions is lost (`GameLoop.ClimbRestartsAtLevelTwo`).
- An obstacle may land on the player's start cell or on the stairs. The test
  meant to keep obstacles off other sprites never hits the inset sprites
  (`Generation.GeneratedObstacles`).
- Connectivity holds over the carved grid only. The obstacles are placed
  after carving, on floor cells, and nothing keeps them off corridors. An
  obstacle on a one-cell-wide corridor can cut the player off from the
  stairs, so `Generation.GeneratedConnected` speaks of walks over the grid,
  not of where the player can go.
- Contact damage is not clamped. Health can go below 0, and the game stops
  after the frame in which it first reaches 0 or less.

## Model

| member | source | states |
|---|---|---|
| `Grid.AllWalls` | dungeon-crawler-game.py:143 | the starting grid is 30 rows of 40 tiles, all of them wall |
| `Grid.CarveRow` | dungeon-crawler-game.py:176-177 | carving one row stretch makes exactly the cells x in [lo, hi] of row y floor, leaves every other cell as it was, and never turns floor into wall |
| `Grid.CarveColumn` | dungeon-crawler-game.py:178-179 | carving one column stretch makes exactly the cells y in [lo, hi] of column x floor, leaves every other cell alone, and never turns floor into wall |
| `Grid.CarveBlock` | dungeon-crawler-game.py:162-164 | carving a room makes exactly its w by h cells floor, leaves every other cell alone, and never turns floor into wall |
| `Rooms.PlaceRooms` | dungeon-crawler-game.py:147-166 | the placement loop keeps earlier rooms as a prefix and adds at most one room per candidate, each one a candidate; it keeps the rooms pairwise non-overlapping |
| `Rooms.PlaceRoomsDecides` | dungeon-crawler-game.py:153-166 | every candidate is either kept or overlaps a kept room, and a candidate that overlaps no room kept so far is kept next |
| `Rooms.PlaceRoomsSnoc` | dungeon-crawler-game.py:153-166 | running the loop over one more candidate is the same as running it over the earlier ones and then admitting the new one: kept exactly when it overlaps none of the rooms kept so far |
| `Rooms.PlaceRoomsKeeps` | dungeon-crawler-game.py:153-166 | the greedy first-fit rule, step by step: after the first k candidates, candidate k is appended when it overlaps no room kept from them, and the room list stays the same when it overlaps one |
| `Rooms.AcceptedRooms` | dungeon-crawler-game.py:147-166 | starting from no rooms, the first candidate is always kept, there are at most as many rooms as candidates, every room lies within its draw ranges, and no two rooms overlap |
| `Rooms.OverlapIffSharedCell` | dungeon-crawler-game.py:154-158 | for rooms of positive size, the strict overlap test holds exactly when the two rooms share a cell |
| `Rooms.DisjointRoomsShareNoCell` | dungeon-crawler-game.py:154-160 | two different kept rooms have no cell in common |
| `Corridors.CarveCorridor` | dungeon-crawler-game.py:173-185 | an L corridor turns exactly the cells of its two legs into floor (row then column, or column then row), leaves every other cell alone, and never turns floor into wall |
| `Corridors.CorridorReachable` | dungeon-crawler-game.py:173-185 | on any grid where every cell of an L corridor is floor, 4-neighbour floor walks join each end to the corner and the two ends to each other |
| `Corridors.CorridorConnects` | dungeon-crawler-game.py:173-185 | for either orientation, both ends and the corner are floor afterwards, and 4-neighbour floor walks join each end to the corner and the two ends to each other |
| `Corridors.CarveRooms` | dungeon-crawler-game.py:160-166 | after carving all kept rooms every cell of every room is floor, only room cells have changed, and no floor has turned into wall |
| `Corridors.ConnectFrom` | dungeon-crawler-game.py:169-185 | the connection loop from room i on makes every cell of the corridors from room k to room k + 1, for k >= i, floor; a cell changes only if it lies on one of those corridors; no floor turns into wall |
| `Corridors.ConnectRooms` | dungeon-crawler-game.py:169-185 | the whole connection loop makes every cell of every corridor between consecutive room centres floor, changes no other cell, and never turns floor into wall |
| `Corridors.LinksReachable` | dungeon-crawler-game.py:169-185 | on any grid where every cell of the corridors between consecutive rooms is floor, the centres of every pair of consecutive rooms are joined by a floor walk |
| `Corridors.ChainReachesAll` | dungeon-crawler-game.py:169-171 | when consecutive centres are joined, every room centre can reach every other one over floor |
| `Corridors.CarveExtraFrom` | dungeon-crawler-game.py:188-194 | the extra-corridor loop from draw i on makes every cell of those corridors floor, changes no other cell, and never turns floor into wall |
| `Corridors.CarveExtraCorridors` | dungeon-crawler-game.py:188-194 | the whole extra-corridor loop makes every cell of every drawn corridor floor, changes no other cell, and never turns floor into wall |
| `Actors.NewPlayer` | dungeon-crawler-game.py:39-42 | a new player has 100 of 100 health, attack 10 and level 1 |
| `Actors.NewEnemy` | dungeon-crawler-game.py:57-61 | an enemy of a given level has health 30 + 10 * level, attack 5 + 2 * level and no cooldown; from level 1 on that is at least 40 health and 7 attack |
| `Actors.UseItem` | dungeon-crawler-game.py:289-293 | a health potion gives the smaller of max health and health + 20, and leaves attack alone; a strength potion adds exactly 5 to attack and changes nothing else; a speed potion changes nothing |
| `Actors.HealthPotionKeepsCap` | dungeon-crawler-game.py:290-291 | from health at most max, a health potion never lowers health and never lifts it past max; it adds the full 20 exactly when that stays within max |
| `Actors.HealthPotionAtNinety` | dungeon-crawler-game.py:290-291 | at 90 of 100 health a health potion gives 100, not 110 |
| `Actors.PickUp` | dungeon-crawler-game.py:287-293 | pickup removes exactly the items on the player's cell, and every other item stays with its multiplicity, so the item count drops by the number on the cell; attack grows by 5 per strength potion picked up; with c health potions picked up, health is unchanged for c = 0 and otherwise becomes min(max, health + 20 * c); from health within max it stays within max and never drops; position, level and max health are unchanged |
| `Actors.Remaining` | dungeon-crawler-game.py:288 | the items left are those off the player's cell, each with its multiplicity, and their number is the old number less those on the cell |
| `Actors.Drink` | dungeon-crawler-game.py:289-293 | using the items on the cell in order adds 5 attack per strength potion, and a run of c health potions gives min(max, health + 20 * c), the same as healing by the total at once |
| `Actors.Contacts` | dungeon-crawler-game.py:277-285 | contact takes the summed attack of all enemies on the player's cell off the player's health, with no clamping, and changes nothing else about the player; the enemies left do not depend on the player's health (`Actors.Survivors`), and exactly the touched enemies with health at most the player's attack are gone; it never restarts a stopped game |
| `Actors.ContactsEnemies` | dungeon-crawler-game.py:278-283 | after contact, an enemy remains exactly when it was away from the player and is unchanged, or was on the player's cell and still has positive health after losing the player's attack |
| `Actors.ContactsSurvivors` | dungeon-crawler-game.py:278-283 | contact keeps every surviving sprite copy for copy: an enemy away from the player keeps all its copies, a touched one leaves as many struck copies as there were, when the blow leaves them positive health, and none otherwise |
| `Actors.Survivors` | dungeon-crawler-game.py:278-283 | the number of enemies left is the number before less those touched and killed by the blow |
| `Actors.SurvivorsCounted` | dungeon-crawler-game.py:278-283 | by induction over the enemy list, the enemies left hold exactly the surviving copies of each enemy |
| `Actors.ContactsEndGame` | dungeon-crawler-game.py:280-285 | the game stops exactly when it was already stopped, or some enemy touched the player and the player's health ended at 0 or less |
| `Actors.EnemyTick` | dungeon-crawler-game.py:64-91 | an enemy with a positive cooldown counts down by one and does not move; an enemy only moves when its cooldown was spent, and then waits 60 frames; with the cooldown spent, a chase step moves it to the step's cell, and no step leaves it entirely unchanged, so it does not start waiting; health and attack never change; the cooldown stays within [0, 60] |
| `Generation.ValidRoomsInterior` | dungeon-crawler-game.py:148-151 | every cell of a room drawn within the ranges lies off the grid's outer ring, the room fits the grid, and its centre (x + w // 2, y + h // 2) lies off the outer ring and strictly inside the room |
| `Generation.MiddleRooms` | dungeon-crawler-game.py:215 | the rooms that get enemies and items are rooms 1 to n - 2, and there are none when there are fewer than three rooms |
| `Generation.CarveLevel` | dungeon-crawler-game.py:143-194 | the carving loops, run in the game's order from an all-wall grid, yield exactly the grid whose floor cells are those of some room, of some corridor between consecutive rooms, or of some extra corridor (`Generation.DigLevel`) |
| `Generation.CarvedCells` | dungeon-crawler-game.py:143-194 | cell by cell: a cell ends up floor exactly when a room or a corridor covers it, and wall otherwise |
| `Generation.DigLevelBorder` | dungeon-crawler-game.py:143-194 | every room cell and every corridor cell lies off the outer ring, so the outer ring stays wall |
| `Generation.DigLevelFloor` | dungeon-crawler-game.py:160-194 | the corridors carved after the rooms never undo them: every cell of every room is floor in the final grid, and so are both ends of every extra corridor |
| `Generation.DigLevelConnected` | dungeon-crawler-game.py:169-194 | every room centre lies off the outer ring, and after all carving every room centre can reach every other one over floor |
| `Generation.SpawnEnemies` | dungeon-crawler-game.py:215-221 | every spawned enemy has the level's stats and stands on a cell drawn for some middle room; conversely every drawn cell of every room gets at least one enemy with the level's stats; there are exactly as many enemies as drawn cells (the number per cell is `SpawnEnemiesCopies`) |
| `Generation.EnemiesAtCopies` | dungeon-crawler-game.py:217-221 | within one room, a cell drawn n times holds exactly n enemies with the level's stats: one enemy per draw, repeats included |
| `Generation.SpawnEnemiesCopies` | dungeon-crawler-game.py:215-221 | over all middle rooms, a cell drawn n times in total (`Drawn`) holds exactly n enemies with the level's stats, so enemies drawn onto the same cell stack |
| `Generation.CountInsideAppend` | dungeon-crawler-game.py:215-228 | the enemies or items strictly inside a room, counted over two runs, add up |
| `Generation.CountInsideAllOrNone` | dungeon-crawler-game.py:217-221 | a run of enemies or items all strictly inside a room counts in full, and a run with none inside counts zero |
| `Generation.SpawnedInside` | dungeon-crawler-game.py:215-221 | when only one room's draws fall inside a region, and all of them do, the enemies spawned inside it are exactly that room's |
| `Generation.StockedRoomCount` | dungeon-crawler-game.py:215-221 | in disjoint rooms, the enemies strictly inside a middle room are exactly as many as were drawn for it |
| `Generation.SpawnEnemiesCount` | dungeon-crawler-game.py:217 | with one to `most` enemies drawn per room, the total lies between the number of rooms and that number times `most` |
| `Generation.SpawnItems` | dungeon-crawler-game.py:223-228 | there is an item for exactly the rooms whose item chance succeeded, at the drawn cell with the drawn kind, and the number of items is the number of successful chances |
| `Generation.SpawnedItemsInside` | dungeon-crawler-game.py:222-228 | when only one room's item may fall inside a region, and it does if drawn, the items inside it number one if that room's chance succeeded and zero otherwise |
| `Generation.StockedRoomItems` | dungeon-crawler-game.py:222-228 | in disjoint rooms, a middle room holds exactly one item strictly inside it when its chance succeeded and none otherwise |
| `Generation.PlaceObstacles` | dungeon-crawler-game.py:231-236 | the obstacles are exactly the drawn cells that are floor; the check against existing obstacles only removes duplicates |
| `Generation.DrawnFloorCount` | dungeon-crawler-game.py:231-236 | there are no more obstacles than obstacle draws |
| `Generation.SpawnedEnemiesPlacement` | dungeon-crawler-game.py:215-221 | enemies drawn within the middle rooms have the level's stats, stand strictly inside one of them and never in the first or the last room |
| `Generation.StockedEnemyCount` | dungeon-crawler-game.py:215-217 | with each middle room's enemy count drawn in [1, 3 + level // 2], there are between n - 2 and (n - 2) * (3 + level // 2) enemies for n rooms |
| `Generation.SpawnedItemsPlacement` | dungeon-crawler-game.py:222-228 | items drawn within the middle rooms lie strictly inside one of them and never in the first or the last room |
| `Generation.Generate` | dungeon-crawler-game.py:135-236 | generation yields a grid of 30 rows of 40 tiles, at least one room and a freshly built player |
| `Generation.GeneratedRooms` | dungeon-crawler-game.py:147-166 | between 1 and 7 + level rooms, the first candidate among them, each within its draw ranges, no two overlapping |
| `Generation.GeneratedGrid` | dungeon-crawler-game.py:143-194 | the generated grid keeps its outer ring wall, and every cell of every room is floor |
| `Generation.GeneratedConnected` | dungeon-crawler-game.py:169-194 | every room centre lies off the outer ring and every pair of room centres is joined by a floor walk |
| `Generation.GeneratedCorridorEnds` | dungeon-crawler-game.py:188-194 | both ends of every extra corridor are floor and lie off the outer ring |
| `Generation.GeneratedSpawns` | dungeon-crawler-game.py:204-212 | the player starts one cell in from the first room's top-left corner and the stairs sit one cell in from the last room's bottom-right corner; both are floor cells strictly inside their rooms, and they differ even when there is only one room |
| `Generation.GeneratedEnemies` | dungeon-crawler-game.py:214-221 | every enemy has health 30 + 10 * level, attack 5 + 2 * level and no cooldown, and stands strictly inside a middle room, never in the first or the last room |
| `Generation.GeneratedEnemyCount` | dungeon-crawler-game.py:215-221 | every middle room of a generated dungeon holds between 1 and 3 + level // 2 enemies strictly inside it, so with n rooms there are between n - 2 and (n - 2) * (3 + level // 2) enemies |
| `Generation.GeneratedItems` | dungeon-crawler-game.py:222-228 | every item lies strictly inside a middle room, never in the first or the last room; each middle room holds at most one item, and there are at most n - 2 items |
| `Generation.GeneratedObstacles` | dungeon-crawler-game.py:230-236 | the obstacles are exactly the drawn floor cells: none on the outer ring, at most 10 + 2 * level of them, and one is on the stairs or the start cell whenever that cell was drawn |
| `GameLoop.KeyDelta` | dungeon-crawler-game.py:251-259 | a key asks for a step of at most one cell along at most one axis; only a non-arrow key asks for no step |
| `GameLoop.MovePlayer` | dungeon-crawler-game.py:261-271 | a move whose target cell holds a grid wall or an obstacle leaves the player where it was; otherwise the player moves by exactly the key's step; nothing else changes |
| `GameLoop.HandleEvents` | dungeon-crawler-game.py:247-271 | the event loop changes only the player's position, and not even that without a key press; the game keeps running exactly when it was running and no quit event came |
| `GameLoop.HandleOneEvent` | dungeon-crawler-game.py:248-271 | a lone key press moves the player exactly as `GameLoop.MovePlayer` does, a lone quit event only stops the game, and any other event changes nothing |
| `GameLoop.HandleEventsConcat` | dungeon-crawler-game.py:247-271 | handling two runs of events is handling the first and then the second from where it left off, so a frame's events act one after another in order |
| `GameLoop.TickEnemies` | dungeon-crawler-game.py:274-275 | no enemy is added or removed; each keeps its health and attack; one still cooling down only counts down by one, in place; one that moves had its cooldown spent, lands on its step's cell and waits 60 frames; one with its cooldown spent and no step is left unchanged; one given no step stays put |
| `GameLoop.TakeStairs` | dungeon-crawler-game.py:296-299 | off the stairs nothing changes; reaching them never changes whether the game is running |
| `GameLoop.Frame` | dungeon-crawler-game.py:246-299 | a frame never restarts a stopped game, and the game stops in any frame that sees a quit event |
| `GameLoop.NewGame` | dungeon-crawler-game.py:238-246 | the game starts running |
| `GameLoop.GeneratedInv` | dungeon-crawler-game.py:204-221 | every generated dungeon satisfies the frame invariant: outer ring wall, player on an off-ring floor cell, player at level 1 with health at most 100 of 100, no enemy with negative attack |
| `GameLoop.MoveKeepsInv` | dungeon-crawler-game.py:261-271 | a move keeps the invariant, and the player either stays or steps to a 4-neighbouring cell |
| `GameLoop.EventsKeepInv` | dungeon-crawler-game.py:247-271 | a frame's events keep the invariant, and the player's end cell is joined to its start cell by a floor walk of at most one step per key press |
| `GameLoop.ClimbRestartsAtLevelTwo` | dungeon-crawler-game.py:296-299 | reaching the stairs in any state the game can be in regenerates level 2, with a player at 100 health, attack 10 and level 1 |
| `GameLoop.FrameKeepsInv` | dungeon-crawler-game.py:246-299 | every frame keeps the invariant, so the player never leaves the floor or reaches the outer ring, and health never exceeds 100 |
| `GameLoop.NewGameInv` | dungeon-crawler-game.py:238-239 | the first dungeon satisfies the invariant, with the player at level 1 |

## Left out

- Drawing, the window, colours, sprite groups, fonts, the clock and the frame rate (dungeon-crawler-game.py:5-28, 124-128, 242-246, 301-317). They are presentation and I/O.
- Enemy chase movement (dungeon-crawler-game.py:69-91). It uses floating-point distances, fractional pixel steps and pygame's scaled rectangle test. `Actors.EnemyTick` takes the result of a chase step as an input, a cell or none, and models only the cooldown. Model enemies stay on cells after a step, although the game's enemies leave the one-pixel inset once they chase, so enemy contact is modelled as sharing the player's cell.
- Probabilities. Each random draw is an input constrained to its range. The 70% item chance is an `Option` that is either present or absent.
- Pixel rectangles. They are reduced to cells as explained above.
- `Generation.ValidDraws` requires level >= 1. The game only ever generates levels 1 and 2.
- `GameLoop.Frame` always takes the draws that a regeneration would use, even when the player does not reach the stairs. The draws are then unused.
- The quit event ends the loop after the current frame. The model reports `running == false`, and the caller stops stepping.
- `Actors.ContactsEndGame` requires every enemy to have a non-negative attack. Every enemy the generator builds has an attack of at least 7.
- `GameLoop.Frame`: its contract is only about `running`. What a frame preserves is stated by `GameLoop.FrameKeepsInv`.
- `Generation.Generate`: its contract is kept short. Its properties are stated by the `Generated*` lemmas.
- Other designs are not modelled: turn-based combat with initiative, skills, mana, defending or fleeing; party members; A* corridor routing; room sectors and themes; wider corridors; choosing the entrance and exit by distance; and the 3-of-4-open-neighbours rule for obstacles. None of these appear in the game source, and the model follows the source. The test files only exercise stand-in classes of their own.

=== FILE: actors.dfy ===
/** The player, enemies and items, and the per-frame rules that act on them
when they share the player's cell: contact damage and item pickup.
 */
module Actors {
  import opened Grid

  const PLAYER_HEALTH: int := 100
  const PLAYER_ATTACK: int := 10
  const POTION_HEAL: int := 20
  const STRENGTH_BONUS: int := 5
  /** Frames an enemy waits after a step before it may step again. */
  const MOVE_DELAY: int := 60

  datatype Option<T> = None | Some(value: T)

  datatype Player = Player(pos: Cell, health: int, maxHealth: int, attack: int, level: int)

  datatype Enemy = Enemy(pos: Cell, health: int, attack: int, cooldown: int)

  datatype ItemKind = HealthPotion | StrengthPotion | SpeedPotion

  datatype Item = Item(pos: Cell, kind: ItemKind)

  /** A freshly built player: the game builds one for every level. */
  function NewPlayer(pos: Cell): (p: Player)
    ensures p.pos == pos && p.level == 1
    ensures p.health == p.maxHealth == PLAYER_HEALTH && p.attack == PLAYER_ATTACK
  {
    Player(pos, PLAYER_HEALTH, PLAYER_HEALTH, PLAYER_ATTACK, 1)
  }

  /** An enemy spawned on a dungeon of the given level. */
  function NewEnemy(pos: Cell, level: int): (e: Enemy)
    ensures e.pos == pos && e.cooldown == 0
    ensures e.health == 30 + 10 * level && e.attack == 5 + 2 * level
    ensures level >= 1 ==> e.health >= 40 && e.attack >= 7
  {
    Enemy(pos, 30 + level * 10, 5 + level * 2, 0)
  }

  /** The effect of one picked-up item. A speed potion has no effect: the
      pickup rule has no branch for it. */
  function UseItem(p: Player, kind: ItemKind): (r: Player)
    ensures r.pos == p.pos && r.maxHealth == p.maxHealth && r.level == p.level
    ensures kind == HealthPotion ==>
      && r.attack == p.attack
      && r.health <= p.maxHealth && r.health <= p.health + POTION_HEAL
      && (r.health == p.maxHealth || r.health == p.health + POTION_HEAL)
    ensures kind == StrengthPotion ==> r == p.(attack := p.attack + STRENGTH_BONUS)
    ensures kind == SpeedPotion ==> r == p
  {
    match kind
    case HealthPotion => p.(health := Min(p.maxHealth, p.health + POTION_HEAL))
    case StrengthPotion => p.(attack := p.attack + STRENGTH_BONUS)
    case SpeedPotion => p
  }

  /** A health potion heals without ever lifting health past the maximum. */
  lemma HealthPotionKeepsCap(p: Player)
    requires p.health <= p.maxHealth
    ensures var r := UseItem(p, HealthPotion);
      p.health <= r.health <= r.maxHealth
      && (r.health == p.health + POTION_HEAL <==> p.health + POTION_HEAL <= p.maxHealth)
  {
  }

  /** The potion at 90 of 100 health gives 100, not 110. */
  lemma HealthPotionAtNinety(pos: Cell, attack: int, level: int)
    ensures UseItem(Player(pos, 90, 100, attack, level), HealthPotion).health == 100
  {
  }

  /** How many of `items` lie on `pos` and are of kind `kind`. */
  function CountAt(items: seq<Item>, pos: Cell, kind: ItemKind): (n: nat)
    ensures n <= |items|
    ensures n == 0 <==> forall it :: it in items && it.pos == pos ==> it.kind != kind
  {
    if |items| == 0 then 0
    else (if items[0].pos == pos && items[0].kind == kind then 1 else 0) + CountAt(items[1..], pos, kind)
  }

  /** How many of `items` lie on `pos`, of any kind. */
  function OnCell(items: seq<Item>, pos: Cell): (n: nat)
    ensures n == CountAt(items, pos, HealthPotion) + CountAt(items, pos, StrengthPotion)
      + CountAt(items, pos, SpeedPotion)
  {
    if |items| == 0 then 0
    else (if items[0].pos == pos then 1 else 0) + OnCell(items[1..], pos)
  }

  datatype Pickup = Pickup(player: Player, items: seq<Item>)

  /** Item pickup: every item on the player's cell is removed and its effect
      applied, in order. */
  function PickUp(p: Player, items: seq<Item>): (r: Pickup)
    ensures forall it :: it in r.items <==> it in items && it.pos != p.pos
    ensures forall it: Item :: it.pos != p.pos ==> multiset(r.items)[it] == multiset(items)[it]
    ensures |r.items| == |items| - OnCell(items, p.pos)
    ensures r.player.pos == p.pos && r.player.level == p.level && r.player.maxHealth == p.maxHealth
    ensures r.player.attack == p.attack + STRENGTH_BONUS * CountAt(items, p.pos, StrengthPotion)
    ensures r.player.health == Healed(p.health, p.maxHealth, CountAt(items, p.pos, HealthPotion))
    ensures p.health <= p.maxHealth ==> p.health <= r.player.health <= r.player.maxHealth
  {
    Pickup(Drink(p, items), Remaining(items, p.pos))
  }

  /** The items left behind once those on `pos` are taken, in their order. */
  function Remaining(items: seq<Item>, pos: Cell): (rest: seq<Item>)
    ensures forall it :: it in rest <==> it in items && it.pos != pos
    ensures forall it: Item :: it.pos != pos ==> multiset(rest)[it] == multiset(items)[it]
    ensures |rest| == |items| - OnCell(items, pos)
  {
    if |items| == 0 then []
    else
      var it := items[0];
      assert forall x :: x in items[1..] ==> x in items;
      assert multiset(items) == multiset([it]) + multiset(items[1..]) by { assert items == [it] + items[1..]; }
      if it.pos == pos then Remaining(items[1..], pos)
      else
        var rest := Remaining(items[1..], pos);
        assert multiset([it] + rest) == multiset([it]) + multiset(rest);
        [it] + rest
  }

  /** The player after using, in order, every item of `items` on the player's cell. */
  function Drink(p: Player, items: seq<Item>): (r: Player)
    ensures r.pos == p.pos && r.level == p.level && r.maxHealth == p.maxHealth
    ensures r.attack == p.attack + STRENGTH_BONUS * CountAt(items, p.pos, StrengthPotion)
    ensures r.health == Healed(p.health, p.maxHealth, CountAt(items, p.pos, HealthPotion))
    ensures p.health <= p.maxHealth ==> p.health <= r.health <= r.maxHealth
    decreases |items|
  {
    if |items| == 0 then p
    else if items[0].pos != p.pos then Drink(p, items[1..])
    else
      var heals := CountAt(items[1..], p.pos, HealthPotion);
      var q := UseItem(p, items[0].kind);
      if items[0].kind == HealthPotion then
        assert q == p.(health := Min(p.maxHealth, p.health + POTION_HEAL));
        HealAgain(p.health, p.maxHealth, heals);
        Drink(q, items[1..])
      else
        assert q.health == p.health;
        Drink(q, items[1..])
  }

  /** Health after drinking `n` health potions in a row: unchanged for none, else capped at `m`. */
  function Healed(h: int, m: int, n: nat): int {
    if n == 0 then h else Min(m, h + POTION_HEAL * n)
  }

  /** One more potion on top of a capped heal is the same as healing by the total at once. */
  lemma HealAgain(h: int, m: int, n: nat)
    ensures Healed(Min(m, h + POTION_HEAL), m, n) == Healed(h, m, n + 1)
  {
  }

  /** The enemies that touch the player standing on `pos`, in order. */
  function Touching(pos: Cell, es: seq<Enemy>): (t: seq<Enemy>)
    ensures forall e :: e in t <==> e in es && e.pos == pos
    ensures |t| <= |es|
  {
    if |es| == 0 then []
    else (if es[0].pos == pos then [es[0]] else []) + Touching(pos, es[1..])
  }

  function TotalAttack(es: seq<Enemy>): int {
    if |es| == 0 then 0 else es[0].attack + TotalAttack(es[1..])
  }

  lemma {:induction false} TotalAttackNonNegative(es: seq<Enemy>)
    ensures (forall e :: e in es ==> e.attack >= 0) ==> TotalAttack(es) >= 0
  {
    if |es| > 0 {
      assert forall e :: e in es[1..] ==> e in es;
      TotalAttackNonNegative(es[1..]);
    }
  }

  datatype Contact = Contact(player: Player, enemies: seq<Enemy>, running: bool)

  /** What contact leaves of the first enemy, in one turn of the contact loop: the
      enemy itself when it is away from the player, otherwise the struck enemy
      when its health stays positive. */
  function FirstLeft(pos: Cell, attack: int, e0: Enemy): seq<Enemy> {
    if e0.pos != pos then [e0]
    else if e0.health - attack <= 0 then []
    else [e0.(health := e0.health - attack)]
  }

  /** Contact damage: each enemy touching the player takes the player's attack
      and deals its own; it is removed once its health is at most 0, and the
      game stops once the player's health is at most 0. Health is not clamped. */
  function Contacts(p: Player, es: seq<Enemy>, running: bool): (r: Contact)
    ensures r.player == p.(health := p.health - TotalAttack(Touching(p.pos, es)))
    ensures r.enemies == Survivors(p.pos, p.attack, es)
    ensures |r.enemies| == |es| - Killed(p.pos, p.attack, es)
    ensures r.running ==> running
    decreases |es|
  {
    if |es| == 0 then Contact(p, [], running)
    else
      var e := es[0];
      if e.pos == p.pos then
        var hurt := p.(health := p.health - e.attack);
        var rest := Contacts(hurt, es[1..], running && hurt.health > 0);
        assert Touching(p.pos, es) == [e] + Touching(p.pos, es[1..]);
        assert ([e] + Touching(p.pos, es[1..]))[1..] == Touching(p.pos, es[1..]);
        Contact(rest.player, FirstLeft(p.pos, p.attack, e) + rest.enemies, rest.running)
      else
        var rest := Contacts(p, es[1..], running);
        assert Touching(p.pos, es) == Touching(p.pos, es[1..]);
        Contact(rest.player, FirstLeft(p.pos, p.attack, e) + rest.enemies, rest.running)
  }

  /** Whether `e` is left after contact with `p`: either an enemy of `es`
      away from the player, or a touched one of `es` that the player's attack
      left with positive health. */
  predicate LeftAfterContact(p: Player, es: seq<Enemy>, e: Enemy) {
    || (e in es && e.pos != p.pos)
    || (e.pos == p.pos && e.health > 0 && e.(health := e.health + p.attack) in es)
  }

  /** The enemies left after contact are exactly those described above. */
  lemma ContactsEnemies(p: Player, es: seq<Enemy>, running: bool)
    ensures forall e :: e in Contacts(p, es, running).enemies <==> LeftAfterContact(p, es, e)
  {
    ContactsSurvivors(p, es, running);
    MembersFromCounts(p, es, Contacts(p, es, running).enemies);
  }

  /** An enemy is left exactly when at least one copy of it is. */
  lemma MembersFromCounts(p: Player, es: seq<Enemy>, r: seq<Enemy>)
    requires SurvivorCounts(p.pos, p.attack, es, r)
    ensures forall e :: e in r <==> LeftAfterContact(p, es, e)
  {
    forall e
      ensures e in r <==> LeftAfterContact(p, es, e)
    {
      assert e in r <==> multiset(r)[e] > 0;
      assert e in es <==> multiset(es)[e] > 0;
      assert e.(health := e.health + p.attack) in es <==> multiset(es)[e.(health := e.health + p.attack)] > 0;
    }
  }

  /** How many copies of `e` are left after contact with a player on `pos`
      with attack `attack`: all copies of an enemy away from the player, and
      for one on the player's cell, as many as there were copies of the
      enemy that the blow left as `e`, provided `e` still has positive health. */
  function LeftCopies(pos: Cell, attack: int, es: seq<Enemy>, e: Enemy): nat {
    if e.pos != pos then multiset(es)[e]
    else if e.health > 0 then multiset(es)[e.(health := e.health + attack)]
    else 0
  }

  /** `r` holds exactly `LeftCopies` copies of every enemy. */
  ghost predicate SurvivorCounts(pos: Cell, attack: int, es: seq<Enemy>, r: seq<Enemy>) {
    forall e :: multiset(r)[e] == LeftCopies(pos, attack, es, e)
  }

  /** The touched enemies of `es` that a blow of `attack` kills. */
  function Killed(pos: Cell, attack: int, es: seq<Enemy>): (n: nat)
    ensures n <= |es|
  {
    if |es| == 0 then 0
    else (if es[0].pos == pos && es[0].health <= attack then 1 else 0) + Killed(pos, attack, es[1..])
  }

  /** Contact keeps every surviving sprite: identical enemies survive or die
      together, copy for copy. */
  lemma ContactsSurvivors(p: Player, es: seq<Enemy>, running: bool)
    ensures SurvivorCounts(p.pos, p.attack, es, Contacts(p, es, running).enemies)
  {
    SurvivorsCounted(p.pos, p.attack, es);
  }

  /** The enemies left by contact with a player on `pos` with attack
      `attack`: they do not depend on the player's health. */
  function Survivors(pos: Cell, attack: int, es: seq<Enemy>): (r: seq<Enemy>)
    ensures |r| == |es| - Killed(pos, attack, es)
  {
    if |es| == 0 then [] else FirstLeft(pos, attack, es[0]) + Survivors(pos, attack, es[1..])
  }

  lemma {:induction false} SurvivorsCounted(pos: Cell, attack: int, es: seq<Enemy>)
    ensures SurvivorCounts(pos, attack, es, Survivors(pos, attack, es))
  {
    if |es| > 0 {
      SurvivorsCounted(pos, attack, es[1..]);
      SurvivorsStep(pos, attack, es, Survivors(pos, attack, es[1..]), Survivors(pos, attack, es));
    } else {
      assert multiset(es) == multiset{};
    }
  }

  /** The step of `ContactsSurvivors`: what is left of the first enemy, put
      before the survivors of the rest, has the survivor counts of the whole. */
  lemma SurvivorsStep(pos: Cell, attack: int, es: seq<Enemy>, rest: seq<Enemy>, r: seq<Enemy>)
    requires 0 < |es|
    requires SurvivorCounts(pos, attack, es[1..], rest)
    requires r == FirstLeft(pos, attack, es[0]) + rest
    ensures SurvivorCounts(pos, attack, es, r)
  {
    var e0, tail := es[0], es[1..];
    assert es == [e0] + tail;
    var front := FirstLeft(pos, attack, e0);
    assert multiset([e0] + tail) == multiset{e0} + multiset(tail);
    forall e
      ensures multiset(front + rest)[e] == LeftCopies(pos, attack, es, e)
    {
      assert multiset(front + rest)[e] == multiset(front)[e] + multiset(rest)[e];
      var healed := e.(health := e.health + attack);
      assert healed == e0 <==> e == e0.(health := e0.health - attack) by {
        if healed == e0 {
          assert e == healed.(health := healed.health - attack);
        }
      }
    }
  }

  /** With no enemy of negative attack the game stops exactly when some enemy
      touched the player and left it with health at most 0. */
  lemma {:induction false} ContactsEndGame(p: Player, es: seq<Enemy>, running: bool)
    requires forall e :: e in es ==> e.attack >= 0
    decreases |es|
    ensures var r := Contacts(p, es, running);
      r.running <==> running && (|Touching(p.pos, es)| == 0 || r.player.health > 0)
  {
    if |es| > 0 {
      var e := es[0];
      assert forall x :: x in es[1..] ==> x in es;
      TotalAttackNonNegative(Touching(p.pos, es[1..]));
      if e.pos == p.pos {
        var hurt := p.(health := p.health - e.attack);
        ContactsEndGame(hurt, es[1..], running && hurt.health > 0);
        assert |Touching(p.pos, es)| > 0;
      } else {
        ContactsEndGame(p, es[1..], running);
        assert Touching(p.pos, es) == Touching(p.pos, es[1..]);
      }
    }
  }

  /** An enemy's per-frame update. While its cooldown is positive it counts
      down and stays put. Otherwise `step` is the outcome of its chase step:
      `Some(c)` when it moved to `c`, after which it waits MOVE_DELAY frames,
      and `None` when it did not move. */
  function EnemyTick(e: Enemy, step: Option<Cell>): (r: Enemy)
    ensures r.health == e.health && r.attack == e.attack
    ensures e.cooldown > 0 ==> r == e.(cooldown := e.cooldown - 1)
    ensures 0 <= e.cooldown <= MOVE_DELAY ==> 0 <= r.cooldown <= MOVE_DELAY
    ensures r.pos != e.pos ==> e.cooldown <= 0 && r.cooldown == MOVE_DELAY
    ensures e.cooldown <= 0 && step.Some? ==> r.pos == step.value && r.cooldown == MOVE_DELAY
    ensures step.None? ==> r.pos == e.pos
    ensures e.cooldown <= 0 && step.None? ==> r == e
  {
    if e.cooldown > 0 then e.(cooldown := e.cooldown - 1)
    else match step
      case None => e
      case Some(c) => e.(pos := c, cooldown := MOVE_DELAY)
  }
}

=== FILE: corridors.dfy ===
/** Carving rooms and L-shaped corridors into the grid, and the connectivity
the corridors between consecutive rooms guarantee.
 */
module Corridors {
  import opened Grid
  import opened Paths
  import opened Rooms

  /** The cell where the two legs of the L from `a` to `b` meet. */
  function Corner(a: Cell, b: Cell, horizontalFirst: bool): Cell {
    if horizontalFirst then Cell(b.x, a.y) else Cell(a.x, b.y)
  }

  /** `c` lies on the L from `a` to `b`: horizontal-first runs along row a.y
      and then column b.x; vertical-first runs along column a.x and then
      row b.y. */
  predicate OnCorridor(a: Cell, b: Cell, horizontalFirst: bool, c: Cell) {
    var k := Corner(a, b, horizontalFirst);
    || (c.y == k.y && Min(a.x, b.x) <= c.x <= Max(a.x, b.x))
    || (c.x == k.x && Min(a.y, b.y) <= c.y <= Max(a.y, b.y))
  }

  /** Carves the L-shaped corridor from `a` to `b`. */
  function CarveCorridor(g: Grid, a: Cell, b: Cell, horizontalFirst: bool): (r: Grid)
    requires WellFormed(g) && InBounds(a) && InBounds(b)
    ensures WellFormed(r)
    ensures forall c :: InBounds(c) ==>
      At(r, c) == (if OnCorridor(a, b, horizontalFirst, c) then Floor else At(g, c))
    ensures FloorGrows(g, r)
  {
    if horizontalFirst then
      CarveColumn(CarveRow(g, a.y, Min(a.x, b.x), Max(a.x, b.x)), b.x, Min(a.y, b.y), Max(a.y, b.y))
    else
      CarveRow(CarveColumn(g, a.x, Min(a.y, b.y), Max(a.y, b.y)), b.y, Min(a.x, b.x), Max(a.x, b.x))
  }

  /** An L between two cells off the outer ring stays off it, and both ends
      lie on it. */
  lemma CorridorInterior(a: Cell, b: Cell, horizontalFirst: bool)
    requires Interior(a) && Interior(b)
    ensures forall c :: OnCorridor(a, b, horizontalFirst, c) ==> Interior(c)
    ensures OnCorridor(a, b, horizontalFirst, a) && OnCorridor(a, b, horizontalFirst, b)
  {
  }

  /** On any grid where every cell of the L is floor, each end reaches the
      corner, and so the other end, by a floor walk. */
  lemma CorridorReachable(g: Grid, a: Cell, b: Cell, horizontalFirst: bool)
    requires WellFormed(g)
    requires forall c :: OnCorridor(a, b, horizontalFirst, c) ==> IsFloor(g, c)
    ensures var k := Corner(a, b, horizontalFirst);
      Reachable(g, a, k) && Reachable(g, k, b) && Reachable(g, a, b)
  {
    var k := Corner(a, b, horizontalFirst);
    if horizontalFirst {
      assert forall x :: Min(a.x, b.x) <= x <= Max(a.x, b.x) ==> OnCorridor(a, b, true, Cell(x, a.y));
      RowReachable(g, a.y, a.x, b.x);
      assert forall y :: Min(a.y, b.y) <= y <= Max(a.y, b.y) ==> OnCorridor(a, b, true, Cell(b.x, y));
      ColumnReachable(g, b.x, a.y, b.y);
    } else {
      assert forall y :: Min(a.y, b.y) <= y <= Max(a.y, b.y) ==> OnCorridor(a, b, false, Cell(a.x, y));
      ColumnReachable(g, a.x, a.y, b.y);
      assert forall x :: Min(a.x, b.x) <= x <= Max(a.x, b.x) ==> OnCorridor(a, b, false, Cell(x, b.y));
      RowReachable(g, b.y, a.x, b.x);
    }
    ReachableTransitive(g, a, k, b);
  }

  /** Carving one corridor, in either orientation, joins its ends and its
      corner by floor walks. */
  lemma CorridorConnects(g: Grid, a: Cell, b: Cell, horizontalFirst: bool)
    requires WellFormed(g) && InBounds(a) && InBounds(b)
    ensures var r := CarveCorridor(g, a, b, horizontalFirst);
      var k := Corner(a, b, horizontalFirst);
      && IsFloor(r, a) && IsFloor(r, b) && IsFloor(r, k)
      && Reachable(r, a, k) && Reachable(r, k, b) && Reachable(r, a, b)
  {
    var r := CarveCorridor(g, a, b, horizontalFirst);
    forall c | OnCorridor(a, b, horizontalFirst, c)
      ensures IsFloor(r, c)
    {
      assert InBounds(c);
    }
    CorridorReachable(r, a, b, horizontalFirst);
  }

  predicate InSomeRoom(rooms: seq<Room>, c: Cell) {
    exists i :: 0 <= i < |rooms| && Contains(rooms[i], c)
  }

  predicate FitsGrid(r: Room) {
    0 <= r.x && 0 <= r.y && 0 <= r.w && 0 <= r.h && r.x + r.w <= COLS && r.y + r.h <= ROWS
  }

  /** Carves every room, in acceptance order: every room cell becomes floor
      and no other cell changes. */
  function CarveRooms(g: Grid, rooms: seq<Room>): (r: Grid)
    requires WellFormed(g) && forall i :: 0 <= i < |rooms| ==> FitsGrid(rooms[i])
    ensures WellFormed(r)
    ensures forall k, c :: 0 <= k < |rooms| && Contains(rooms[k], c) ==> IsFloor(r, c)
    ensures forall c :: InBounds(c) && At(r, c) != At(g, c) ==> InSomeRoom(rooms, c)
    ensures FloorGrows(g, r)
  {
    if |rooms| == 0 then g
    else
      var last := rooms[|rooms| - 1];
      var before := rooms[..|rooms| - 1];
      assert FitsGrid(last);
      var r := CarveBlock(CarveRooms(g, before), last.x, last.y, last.w, last.h);
      assert forall k :: 0 <= k < |before| ==> before[k] == rooms[k];
      r
  }

  /** `c` lies on the corridor joining room k to room k + 1 for some k >= i;
      `turns[k]` is that corridor's orientation. */
  predicate LinkedFrom(rooms: seq<Room>, turns: seq<bool>, i: int, c: Cell)
    requires |rooms| <= |turns| + 1
  {
    exists k :: i <= k && 0 <= k < |rooms| - 1 && OnCorridor(Centre(rooms[k]), Centre(rooms[k + 1]), turns[k], c)
  }

  /** Carves the corridors between consecutive rooms from index `i` on:
      every cell of those corridors becomes floor and no other cell changes. */
  function ConnectFrom(g: Grid, rooms: seq<Room>, turns: seq<bool>, i: nat): (r: Grid)
    requires WellFormed(g) && |rooms| <= |turns| + 1
    requires forall k :: 0 <= k < |rooms| ==> InBounds(Centre(rooms[k]))
    ensures WellFormed(r)
    ensures forall k, c ::
      i <= k < |rooms| - 1 && InBounds(c) && OnCorridor(Centre(rooms[k]), Centre(rooms[k + 1]), turns[k], c)
      ==> IsFloor(r, c)
    ensures forall c :: InBounds(c) && At(r, c) != At(g, c) ==> LinkedFrom(rooms, turns, i, c)
    ensures FloorGrows(g, r)
    decreases |rooms| - i
  {
    if i + 1 >= |rooms| then g
    else
      var next := CarveCorridor(g, Centre(rooms[i]), Centre(rooms[i + 1]), turns[i]);
      var r := ConnectFrom(next, rooms, turns, i + 1);
      LinkStep(g, next, r, rooms, turns, i);
      r
  }

  /** One step of the connection loop: the corridor from room `i` to room
      `i + 1` carved into `g` gives `next`, and the rest of the loop turns
      `next` into `r`. */
  lemma LinkStep(g: Grid, next: Grid, r: Grid, rooms: seq<Room>, turns: seq<bool>, i: nat)
    requires WellFormed(g) && WellFormed(next) && WellFormed(r)
    requires |rooms| <= |turns| + 1 && i + 1 < |rooms|
    requires forall c :: InBounds(c) ==>
      At(next, c) == (if OnCorridor(Centre(rooms[i]), Centre(rooms[i + 1]), turns[i], c) then Floor else At(g, c))
    requires forall k, c ::
      i + 1 <= k < |rooms| - 1 && InBounds(c) && OnCorridor(Centre(rooms[k]), Centre(rooms[k + 1]), turns[k], c)
      ==> IsFloor(r, c)
    requires forall c :: InBounds(c) && At(r, c) != At(next, c) ==> LinkedFrom(rooms, turns, i + 1, c)
    requires FloorGrows(g, next) && FloorGrows(next, r)
    ensures forall k, c ::
      i <= k < |rooms| - 1 && InBounds(c) && OnCorridor(Centre(rooms[k]), Centre(rooms[k + 1]), turns[k], c)
      ==> IsFloor(r, c)
    ensures forall c :: InBounds(c) && At(r, c) != At(g, c) ==> LinkedFrom(rooms, turns, i, c)
    ensures FloorGrows(g, r)
  {
    FloorGrowsTransitive(g, next, r);
    forall c | InBounds(c) && OnCorridor(Centre(rooms[i]), Centre(rooms[i + 1]), turns[i], c)
      ensures IsFloor(r, c)
    {
      assert IsFloor(next, c);
    }
    forall c | InBounds(c) && At(r, c) != At(g, c)
      ensures LinkedFrom(rooms, turns, i, c)
    {
      if At(next, c) != At(g, c) {
        assert OnCorridor(Centre(rooms[i]), Centre(rooms[i + 1]), turns[i], c);
      } else {
        assert LinkedFrom(rooms, turns, i + 1, c);
      }
    }
  }

  /** The room-connection loop of the generator. */
  function ConnectRooms(g: Grid, rooms: seq<Room>, turns: seq<bool>): (r: Grid)
    requires WellFormed(g) && |rooms| <= |turns| + 1
    requires forall k :: 0 <= k < |rooms| ==> InBounds(Centre(rooms[k]))
    ensures WellFormed(r)
    ensures forall k, c ::
      0 <= k < |rooms| - 1 && InBounds(c) && OnCorridor(Centre(rooms[k]), Centre(rooms[k + 1]), turns[k], c)
      ==> IsFloor(r, c)
    ensures forall c :: InBounds(c) && At(r, c) != At(g, c) ==> LinkedFrom(rooms, turns, 0, c)
    ensures FloorGrows(g, r)
  {
    ConnectFrom(g, rooms, turns, 0)
  }

  /** On any grid where every connecting corridor is floor, each pair of
      consecutive centres is joined by a floor walk. */
  lemma LinksReachable(g: Grid, rooms: seq<Room>, turns: seq<bool>)
    requires WellFormed(g) && |rooms| <= |turns| + 1
    requires forall c :: LinkedFrom(rooms, turns, 0, c) ==> IsFloor(g, c)
    ensures forall k :: 0 <= k < |rooms| - 1 ==> Reachable(g, Centre(rooms[k]), Centre(rooms[k + 1]))
  {
    forall k | 0 <= k < |rooms| - 1
      ensures Reachable(g, Centre(rooms[k]), Centre(rooms[k + 1]))
    {
      var a, b := Centre(rooms[k]), Centre(rooms[k + 1]);
      forall c | OnCorridor(a, b, turns[k], c)
        ensures IsFloor(g, c)
      {
        assert LinkedFrom(rooms, turns, 0, c);
      }
      CorridorReachable(g, a, b, turns[k]);
    }
  }

  /** A chain of consecutive links joins every centre to every other. */
  lemma {:induction false} ChainReachesAll(g: Grid, rooms: seq<Room>)
    requires WellFormed(g) && 0 < |rooms|
    requires IsFloor(g, Centre(rooms[0]))
    requires forall k :: 0 <= k < |rooms| - 1 ==> Reachable(g, Centre(rooms[k]), Centre(rooms[k + 1]))
    ensures forall j, k :: 0 <= j < |rooms| && 0 <= k < |rooms| ==>
      Reachable(g, Centre(rooms[j]), Centre(rooms[k]))
  {
    var c0 := Centre(rooms[0]);
    ChainFromFirst(g, rooms, |rooms| - 1);
    forall j, k | 0 <= j < |rooms| && 0 <= k < |rooms|
      ensures Reachable(g, Centre(rooms[j]), Centre(rooms[k]))
    {
      ReachableSymmetric(g, c0, Centre(rooms[j]));
      ReachableTransitive(g, Centre(rooms[j]), c0, Centre(rooms[k]));
    }
  }

  lemma {:induction false} ChainFromFirst(g: Grid, rooms: seq<Room>, n: nat)
    requires WellFormed(g) && n < |rooms|
    requires IsFloor(g, Centre(rooms[0]))
    requires forall k :: 0 <= k < |rooms| - 1 ==> Reachable(g, Centre(rooms[k]), Centre(rooms[k + 1]))
    ensures forall k :: 0 <= k <= n ==> Reachable(g, Centre(rooms[0]), Centre(rooms[k]))
  {
    if n == 0 {
      ReachableFromFloor(g, Centre(rooms[0]));
    } else {
      ChainFromFirst(g, rooms, n - 1);
      ReachableTransitive(g, Centre(rooms[0]), Centre(rooms[n - 1]), Centre(rooms[n]));
    }
  }

  /** One extra corridor: from (x1, y1) to (x2, y2), horizontal first. */
  datatype CorridorDraw = CorridorDraw(from: Cell, to: Cell)

  /** `c` lies on one of the extra corridors from index `i` on. */
  predicate OnExtra(draws: seq<CorridorDraw>, i: int, c: Cell) {
    exists k :: i <= k && 0 <= k < |draws| && OnCorridor(draws[k].from, draws[k].to, true, c)
  }

  /** Carves the extra corridors from index `i` on: every cell of those
      corridors becomes floor and no other cell changes. */
  function CarveExtraFrom(g: Grid, draws: seq<CorridorDraw>, i: nat): (r: Grid)
    requires WellFormed(g)
    requires forall k :: 0 <= k < |draws| ==> InBounds(draws[k].from) && InBounds(draws[k].to)
    ensures WellFormed(r)
    ensures forall k, c ::
      i <= k < |draws| && InBounds(c) && OnCorridor(draws[k].from, draws[k].to, true, c)
      ==> IsFloor(r, c)
    ensures forall c :: InBounds(c) && At(r, c) != At(g, c) ==> OnExtra(draws, i, c)
    ensures FloorGrows(g, r)
    decreases |draws| - i
  {
    if i >= |draws| then g
    else
      var next := CarveCorridor(g, draws[i].from, draws[i].to, true);
      var r := CarveExtraFrom(next, draws, i + 1);
      ExtraStep(g, next, r, draws, i);
      r
  }

  /** One step of the extra-corridor loop: corridor `i` carved into `g`
      gives `next`, and the rest of the loop turns `next` into `r`. */
  lemma ExtraStep(g: Grid, next: Grid, r: Grid, draws: seq<CorridorDraw>, i: nat)
    requires WellFormed(g) && WellFormed(next) && WellFormed(r) && i < |draws|
    requires forall c :: InBounds(c) ==>
      At(next, c) == (if OnCorridor(draws[i].from, draws[i].to, true, c) then Floor else At(g, c))
    requires forall k, c ::
      i + 1 <= k < |draws| && InBounds(c) && OnCorridor(draws[k].from, draws[k].to, true, c)
      ==> IsFloor(r, c)
    requires forall c :: InBounds(c) && At(r, c) != At(next, c) ==> OnExtra(draws, i + 1, c)
    requires FloorGrows(g, next) && FloorGrows(next, r)
    ensures forall k, c ::
      i <= k < |draws| && InBounds(c) && OnCorridor(draws[k].from, draws[k].to, true, c)
      ==> IsFloor(r, c)
    ensures forall c :: InBounds(c) && At(r, c) != At(g, c) ==> OnExtra(draws, i, c)
    ensures FloorGrows(g, r)
  {
    FloorGrowsTransitive(g, next, r);
    forall c | InBounds(c) && OnCorridor(draws[i].from, draws[i].to, true, c)
      ensures IsFloor(r, c)
    {
      assert IsFloor(next, c);
    }
    forall c | InBounds(c) && At(r, c) != At(g, c)
      ensures OnExtra(draws, i, c)
    {
      if At(next, c) != At(g, c) {
        assert OnCorridor(draws[i].from, draws[i].to, true, c);
      } else {
        assert OnExtra(draws, i + 1, c);
      }
    }
  }

  /** The extra-corridor loop of the generator. */
  function CarveExtraCorridors(g: Grid, draws: seq<CorridorDraw>): (r: Grid)
    requires WellFormed(g)
    requires forall k :: 0 <= k < |draws| ==> InBounds(draws[k].from) && InBounds(draws[k].to)
    ensures WellFormed(r)
    ensures forall k, c ::
      0 <= k < |draws| && InBounds(c) && OnCorridor(draws[k].from, draws[k].to, true, c)
      ==> IsFloor(r, c)
    ensures forall c :: InBounds(c) && At(r, c) != At(g, c) ==> OnExtra(draws, 0, c)
    ensures FloorGrows(g, r)
  {
    CarveExtraFrom(g, draws, 0)
  }
}

=== FILE: gameloop.dfy ===
/** One frame of the main loop: key events move the player, enemies count
down their cooldowns, then contact damage, item pickup and the stairs are
resolved, in that order.
 */
module GameLoop {
  import opened Grid
  import opened Paths
  import opened Actors
  import opened Generation

  datatype Key = Left | Right | Up | Down | OtherKey

  datatype Event = Quit | KeyDown(key: Key) | OtherEvent

  datatype Game = Game(dungeon: Dungeon, running: bool)

  /** The step a key asks for: one cell along at most one axis. */
  function KeyDelta(k: Key): (d: (int, int))
    ensures -1 <= d.0 <= 1 && -1 <= d.1 <= 1
    ensures d.0 == 0 || d.1 == 0
    ensures d == (0, 0) <==> k == OtherKey
  {
    match k
    case Left => (-1, 0)
    case Right => (1, 0)
    case Up => (0, -1)
    case Down => (0, 1)
    case OtherKey => (0, 0)
  }

  function Target(pos: Cell, k: Key): Cell {
    Cell(pos.x + KeyDelta(k).0, pos.y + KeyDelta(k).1)
  }

  /** A wall sprite fills `c`: a grid wall or an obstacle. Every other sprite
      is inset by a pixel, so the player's rectangle meets a wall sprite
      exactly when both are on the same cell. */
  predicate HasWallSprite(dg: Dungeon, c: Cell)
    requires WellFormed(dg.grid)
  {
    (InBounds(c) && At(dg.grid, c) == Wall) || c in dg.obstacles
  }

  /** A key press: the player steps, and steps back if it now meets a wall sprite. */
  function MovePlayer(dg: Dungeon, k: Key): (r: Dungeon)
    requires WellFormed(dg.grid)
    ensures r == dg.(player := dg.player.(pos := r.player.pos))
    ensures HasWallSprite(dg, Target(dg.player.pos, k)) ==> r.player.pos == dg.player.pos
    ensures !HasWallSprite(dg, Target(dg.player.pos, k)) ==> r.player.pos == Target(dg.player.pos, k)
  {
    var p := dg.player;
    var moved := Target(p.pos, k);
    if HasWallSprite(dg, moved) then dg else dg.(player := p.(pos := moved))
  }

  /** How many key presses `events` holds. */
  function KeyPresses(events: seq<Event>): (n: nat)
    ensures n <= |events|
  {
    if |events| == 0 then 0 else (if events[0].KeyDown? then 1 else 0) + KeyPresses(events[1..])
  }

  /** The event loop of one frame. */
  function HandleEvents(g: Game, events: seq<Event>): (r: Game)
    requires WellFormed(g.dungeon.grid)
    ensures r.dungeon == g.dungeon.(player := g.dungeon.player.(pos := r.dungeon.player.pos))
    ensures r.running <==> g.running && Quit !in events
    ensures KeyPresses(events) == 0 ==> r.dungeon == g.dungeon
    decreases |events|
  {
    if |events| == 0 then g
    else
      var next := match events[0]
        case Quit => g.(running := false)
        case KeyDown(k) => g.(dungeon := MovePlayer(g.dungeon, k))
        case OtherEvent => g;
      assert forall e :: e in events <==> e == events[0] || e in events[1..];
      HandleEvents(next, events[1..])
  }

  /** A lone event: a key press is exactly one `MovePlayer`, a quit event only
      stops the game, and any other event changes nothing. */
  lemma HandleOneEvent(g: Game, ev: Event)
    requires WellFormed(g.dungeon.grid)
    ensures ev.KeyDown? ==> HandleEvents(g, [ev]) == g.(dungeon := MovePlayer(g.dungeon, ev.key))
    ensures ev == Quit ==> HandleEvents(g, [ev]) == g.(running := false)
    ensures ev == OtherEvent ==> HandleEvents(g, [ev]) == g
  {
  }

  /** The events of a frame are handled one after another, in order. */
  lemma {:induction false} HandleEventsConcat(g: Game, a: seq<Event>, b: seq<Event>)
    requires WellFormed(g.dungeon.grid)
    ensures WellFormed(HandleEvents(g, a).dungeon.grid)
    ensures HandleEvents(g, a + b) == HandleEvents(HandleEvents(g, a), b)
    decreases |a|
  {
    if |a| > 0 {
      assert (a + b)[0] == a[0] && (a + b)[1..] == a[1..] + b;
      var next := match a[0]
        case Quit => g.(running := false)
        case KeyDown(k) => g.(dungeon := MovePlayer(g.dungeon, k))
        case OtherEvent => g;
      HandleEventsConcat(next, a[1..], b);
    } else {
      assert a + b == b;
    }
  }

  function TickEnemies(es: seq<Enemy>, steps: seq<Option<Cell>>): (r: seq<Enemy>)
    requires |steps| == |es|
    ensures |r| == |es|
    ensures forall i :: 0 <= i < |es| ==> r[i].health == es[i].health && r[i].attack == es[i].attack
    ensures forall i :: 0 <= i < |es| && es[i].cooldown > 0 ==> r[i] == es[i].(cooldown := es[i].cooldown - 1)
    ensures forall i :: 0 <= i < |es| && es[i].cooldown <= 0 && steps[i].Some? ==>
      r[i].pos == steps[i].value && r[i].cooldown == MOVE_DELAY
    ensures forall i :: 0 <= i < |es| && steps[i].None? ==> r[i].pos == es[i].pos
    ensures forall i :: 0 <= i < |es| && es[i].cooldown <= 0 && steps[i].None? ==> r[i] == es[i]
    ensures forall i :: 0 <= i < |es| && r[i].pos != es[i].pos ==> es[i].cooldown <= 0
  {
    seq(|es|, i requires 0 <= i < |es| => EnemyTick(es[i], steps[i]))
  }

  /** The stairs: on reaching them the level number goes up and health is
      restored, then the dungeon is regenerated for that level, which builds
      a fresh player in place of the old one. */
  function TakeStairs(g: Game, draws: Draws): (r: Game)
    requires ValidDraws(g.dungeon.player.level + 1, draws)
    ensures r.running == g.running
    ensures g.dungeon.player.pos != g.dungeon.stairs ==> r == g
  {
    var p := g.dungeon.player;
    if p.pos == g.dungeon.stairs then
      var climbed := p.(level := p.level + 1, health := p.maxHealth);
      Game(Generate(climbed.level, draws), g.running)
    else g
  }

  /** One pass of the main loop. `steps` are the enemies' chase outcomes and
      `draws` the draws a regeneration would use. */
  function Frame(g: Game, events: seq<Event>, steps: seq<Option<Cell>>, draws: Draws): (r: Game)
    requires WellFormed(g.dungeon.grid)
    requires |steps| == |g.dungeon.enemies|
    requires ValidDraws(g.dungeon.player.level + 1, draws)
    ensures r.running ==> g.running && Quit !in events
  {
    var moved := HandleEvents(g, events);
    var ticked := TickEnemies(moved.dungeon.enemies, steps);
    var fight := Contacts(moved.dungeon.player, ticked, moved.running);
    var pickup := PickUp(fight.player, moved.dungeon.items);
    var settled := Game(
      moved.dungeon.(player := pickup.player, enemies := fight.enemies, items := pickup.items),
      fight.running);
    TakeStairs(settled, draws)
  }

  function NewGame(draws: Draws): (g: Game)
    requires ValidDraws(1, draws)
    ensures g.running
  {
    Game(Generate(1, draws), true)
  }

  /** What holds of the dungeon between frames. */
  ghost predicate Inv(dg: Dungeon) {
    && WellFormed(dg.grid)
    && BorderIsWall(dg.grid)
    && Interior(dg.player.pos)
    && IsFloor(dg.grid, dg.player.pos)
    && dg.player.level == 1
    && dg.player.maxHealth == PLAYER_HEALTH
    && dg.player.health <= dg.player.maxHealth
    && (forall e :: e in dg.enemies ==> e.attack >= 0)
  }

  lemma GeneratedInv(level: int, d: Draws)
    requires ValidDraws(level, d)
    ensures Inv(Generate(level, d))
  {
    GeneratedGrid(level, d);
    GeneratedSpawns(level, d);
    GeneratedEnemies(level, d);
  }

  /** A move never leaves the grid's floor: the player either stays or steps
      to a 4-neighbouring floor cell off the border. */
  lemma MoveKeepsInv(dg: Dungeon, k: Key)
    requires Inv(dg)
    ensures var r := MovePlayer(dg, k);
      && Inv(r)
      && (r.player.pos == dg.player.pos || Adjacent(dg.player.pos, r.player.pos))
  {
    var t := Target(dg.player.pos, k);
    if !HasWallSprite(dg, t) {
      assert InBounds(t);
      assert Interior(t);
    }
  }

  /** A frame's events keep the invariant, and the player ends where a walk
      over floor of at most one step per key press leads from where it began. */
  lemma {:induction false} EventsKeepInv(g: Game, events: seq<Event>)
    requires Inv(g.dungeon)
    ensures var r := HandleEvents(g, events).dungeon;
      && Inv(r)
      && exists p :: Walk(g.dungeon.grid, p, g.dungeon.player.pos, r.player.pos) && |p| <= KeyPresses(events) + 1
    decreases |events|
  {
    var start := g.dungeon.player.pos;
    if |events| > 0 {
      var next := match events[0]
        case Quit => g.(running := false)
        case KeyDown(k) => g.(dungeon := MovePlayer(g.dungeon, k))
        case OtherEvent => g;
      if events[0].KeyDown? {
        MoveKeepsInv(g.dungeon, events[0].key);
      }
      EventsKeepInv(next, events[1..]);
      var r := HandleEvents(g, events).dungeon;
      assert r == HandleEvents(next, events[1..]).dungeon;
      assert next.dungeon.grid == g.dungeon.grid;
      var q :| Walk(g.dungeon.grid, q, next.dungeon.player.pos, r.player.pos) && |q| <= KeyPresses(events[1..]) + 1;
      if next.dungeon.player.pos == start {
        assert Walk(g.dungeon.grid, q, start, r.player.pos);
      } else {
        var step := [start, next.dungeon.player.pos];
        assert Walk(g.dungeon.grid, step, start, next.dungeon.player.pos);
        WalkJoin(g.dungeon.grid, step, q, start, next.dungeon.player.pos, r.player.pos);
      }
    } else {
      assert Walk(g.dungeon.grid, [start], start, start);
    }
  }

  /** Reaching the stairs from any state of the game regenerates level 2 and
      resets the player to 100 health, attack 10 and level 1: whatever the
      player had gained is lost, and the level number never passes 2. */
  lemma ClimbRestartsAtLevelTwo(g: Game, draws: Draws)
    requires Inv(g.dungeon) && ValidDraws(2, draws)
    requires g.dungeon.player.pos == g.dungeon.stairs
    ensures var r := TakeStairs(g, draws);
      && r.dungeon == Generate(2, draws)
      && r.dungeon.player.health == 100 && r.dungeon.player.attack == 10 && r.dungeon.player.level == 1
  {
  }

  /** Every frame keeps the invariant, so it holds in every state the game
      reaches from its first dungeon. */
  lemma FrameKeepsInv(g: Game, events: seq<Event>, steps: seq<Option<Cell>>, draws: Draws)
    requires Inv(g.dungeon)
    requires |steps| == |g.dungeon.enemies|
    requires ValidDraws(2, draws)
    ensures Inv(Frame(g, events, steps, draws).dungeon)
  {
    var moved := HandleEvents(g, events);
    EventsKeepInv(g, events);
    var ticked := TickEnemies(moved.dungeon.enemies, steps);
    assert forall e :: e in ticked ==> e.attack >= 0 by {
      forall e | e in ticked
        ensures e.attack >= 0
      {
        var i :| 0 <= i < |ticked| && ticked[i] == e;
      }
    }
    var fight := Contacts(moved.dungeon.player, ticked, moved.running);
    ContactsEnemies(moved.dungeon.player, ticked, moved.running);
    TotalAttackNonNegative(Touching(moved.dungeon.player.pos, ticked));
    var pickup := PickUp(fight.player, moved.dungeon.items);
    var settled := Game(
      moved.dungeon.(player := pickup.player, enemies := fight.enemies, items := pickup.items),
      fight.running);
    assert Inv(settled.dungeon);
    if settled.dungeon.player.pos == settled.dungeon.stairs {
      GeneratedInv(2, draws);
    }
  }

  lemma NewGameInv(draws: Draws)
    requires ValidDraws(1, draws)
    ensures Inv(NewGame(draws).dungeon)
    ensures NewGame(draws).dungeon.player.level == 1
  {
    GeneratedInv(1, draws);
  }
}

=== FILE: generation.dfy ===
/** Dungeon generation with its random draws passed in explicitly.

Every `random.randint`, `random.choice` and `random.random` call of the
generator becomes a field of `Draws`, and `ValidDraws` states the range each
draw comes from. Generation is then a pure function of the level and the
draws, and the lemmas below state what holds for every level and every
admissible sequence of draws.
 */
module Generation {
  import opened Grid
  import opened Paths
  import opened Rooms
  import opened Corridors
  import opened Actors

  /** The three draws of an item: its cell, then its kind. */
  datatype ItemDraw = ItemDraw(pos: Cell, kind: ItemKind)

  /** The draws that stock one middle room: the cells of its enemies (their
      count is the first draw) and, when the 70% chance succeeds, its item. */
  datatype Stock = Stock(enemies: seq<Cell>, item: Option<ItemDraw>)

  /** All draws of one generation, grouped by the loop that consumes them:
      room candidates, corridor orientations (true: horizontal first), extra
      corridors, the stock of each middle room, and obstacle cells. */
  datatype Draws = Draws(
    candidates: seq<Room>,
    turns: seq<bool>,
    corridors: seq<CorridorDraw>,
    stock: seq<Stock>,
    obstacles: seq<Cell>)

  datatype Dungeon = Dungeon(
    grid: Grid,
    rooms: seq<Room>,
    player: Player,
    stairs: Cell,
    enemies: seq<Enemy>,
    items: seq<Item>,
    obstacles: set<Cell>)

  /** All rooms but the first and the last. */
  function MiddleRooms(rooms: seq<Room>): (m: seq<Room>)
    ensures |m| == if |rooms| >= 2 then |rooms| - 2 else 0
    ensures forall k :: 0 <= k < |m| ==> m[k] == rooms[k + 1]
  {
    if |rooms| >= 2 then rooms[1..|rooms| - 1] else []
  }

  predicate ValidStock(level: int, room: Room, s: Stock) {
    && 1 <= |s.enemies| <= 3 + level / 2
    && (forall k :: 0 <= k < |s.enemies| ==> StrictlyInside(room, s.enemies[k]))
    && (s.item.Some? ==> StrictlyInside(room, s.item.value.pos))
  }

  /** The stock of each middle room was drawn within that room. */
  predicate StockFits(level: int, rooms: seq<Room>, stock: seq<Stock>) {
    && |stock| == |MiddleRooms(rooms)|
    && forall k :: 0 <= k < |stock| ==> ValidStock(level, MiddleRooms(rooms)[k], stock[k])
  }

  predicate ValidDraws(level: int, d: Draws) {
    && level >= 1
    && |d.candidates| == 7 + level
    && (forall k :: 0 <= k < |d.candidates| ==> ValidRoom(d.candidates[k]))
    && |d.turns| + 1 == |Accepted(d.candidates)|
    && |d.corridors| == 3 + level
    && (forall k :: 0 <= k < |d.corridors| ==> Interior(d.corridors[k].from) && Interior(d.corridors[k].to))
    && StockFits(level, Accepted(d.candidates), d.stock)
    && |d.obstacles| == 10 + 2 * level
    && (forall k :: 0 <= k < |d.obstacles| ==> Interior(d.obstacles[k]))
  }

  /** Rooms drawn within their ranges keep off the outer ring, and each
      centre lies strictly inside its room. */
  lemma ValidRoomsInterior(rooms: seq<Room>)
    requires forall k :: 0 <= k < |rooms| ==> ValidRoom(rooms[k])
    ensures forall c :: InSomeRoom(rooms, c) ==> Interior(c)
    ensures forall k :: 0 <= k < |rooms| ==> Interior(Centre(rooms[k])) && FitsGrid(rooms[k])
    ensures forall k :: 0 <= k < |rooms| ==> StrictlyInside(rooms[k], Centre(rooms[k]))
  {
  }

  /** The cells the generator turns into floor: room cells, cells of the
      corridors joining consecutive rooms, and cells of the extra corridors. */
  predicate Dug(rooms: seq<Room>, turns: seq<bool>, corridors: seq<CorridorDraw>, c: Cell)
    requires |rooms| <= |turns| + 1
  {
    InSomeRoom(rooms, c) || LinkedFrom(rooms, turns, 0, c) || OnExtra(corridors, 0, c)
  }

  /** The finished grid of a level: floor exactly on the dug cells. */
  function DigLevel(rooms: seq<Room>, turns: seq<bool>, corridors: seq<CorridorDraw>): (g: Grid)
    requires |rooms| <= |turns| + 1
    ensures WellFormed(g)
    ensures forall c :: InBounds(c) ==> (At(g, c) == Floor <==> Dug(rooms, turns, corridors, c))
  {
    seq(ROWS, y => seq(COLS, x => if Dug(rooms, turns, corridors, Cell(x, y)) then Floor else Wall))
  }

  /** The generator's carving loops, in order, starting from solid wall:
      rooms, then corridors between consecutive rooms, then extra corridors.
      They yield exactly the grid whose floor is the dug cells. */
  function CarveLevel(rooms: seq<Room>, turns: seq<bool>, corridors: seq<CorridorDraw>): (g: Grid)
    requires forall k :: 0 <= k < |rooms| ==> ValidRoom(rooms[k])
    requires |rooms| <= |turns| + 1
    requires forall k :: 0 <= k < |corridors| ==> InBounds(corridors[k].from) && InBounds(corridors[k].to)
    ensures g == DigLevel(rooms, turns, corridors)
  {
    ValidRoomsInterior(rooms);
    var carved := CarveRooms(AllWalls(), rooms);
    var linked := ConnectRooms(carved, rooms, turns);
    var g := CarveExtraCorridors(linked, corridors);
    CarvedCells(rooms, turns, corridors, AllWalls(), carved, linked, g);
    SameCells(g, DigLevel(rooms, turns, corridors));
    g
  }

  /** Cell by cell, the three carving loops leave floor exactly where a
      room or a corridor passes. */
  lemma CarvedCells(rooms: seq<Room>, turns: seq<bool>, corridors: seq<CorridorDraw>,
                    walls: Grid, carved: Grid, linked: Grid, g: Grid)
    requires |rooms| <= |turns| + 1
    requires WellFormed(walls) && WellFormed(carved) && WellFormed(linked) && WellFormed(g)
    requires forall c :: InBounds(c) ==> At(walls, c) == Wall
    requires forall k, c :: 0 <= k < |rooms| && Contains(rooms[k], c) ==> IsFloor(carved, c)
    requires forall c :: InBounds(c) && At(carved, c) != At(walls, c) ==> InSomeRoom(rooms, c)
    requires forall k, c ::
      0 <= k < |rooms| - 1 && InBounds(c) && OnCorridor(Centre(rooms[k]), Centre(rooms[k + 1]), turns[k], c)
      ==> IsFloor(linked, c)
    requires forall c :: InBounds(c) && At(linked, c) != At(carved, c) ==> LinkedFrom(rooms, turns, 0, c)
    requires forall k, c ::
      0 <= k < |corridors| && InBounds(c) && OnCorridor(corridors[k].from, corridors[k].to, true, c)
      ==> IsFloor(g, c)
    requires forall c :: InBounds(c) && At(g, c) != At(linked, c) ==> OnExtra(corridors, 0, c)
    requires FloorGrows(carved, linked) && FloorGrows(linked, g)
    ensures forall c :: InBounds(c) ==> At(g, c) == At(DigLevel(rooms, turns, corridors), c)
  {
    var dug := DigLevel(rooms, turns, corridors);
    forall c | InBounds(c)
      ensures At(g, c) == At(dug, c)
    {
      if Dug(rooms, turns, corridors, c) {
        if InSomeRoom(rooms, c) {
          var k :| 0 <= k < |rooms| && Contains(rooms[k], c);
          assert IsFloor(carved, c);
          assert IsFloor(linked, c);
        } else if LinkedFrom(rooms, turns, 0, c) {
          var k :| 0 <= k < |rooms| - 1 && OnCorridor(Centre(rooms[k]), Centre(rooms[k + 1]), turns[k], c);
          assert IsFloor(linked, c);
        } else {
          var k :| 0 <= k < |corridors| && OnCorridor(corridors[k].from, corridors[k].to, true, c);
        }
        assert IsFloor(g, c);
        assert At(dug, c) == Floor;
      } else {
        assert At(g, c) == At(linked, c);
        assert At(linked, c) == At(carved, c);
        assert At(carved, c) == At(walls, c);
        assert At(dug, c) == Wall;
      }
    }
  }

  /** Every dug cell lies off the outer ring, so the outer ring stays wall. */
  lemma DigLevelBorder(rooms: seq<Room>, turns: seq<bool>, corridors: seq<CorridorDraw>)
    requires forall k :: 0 <= k < |rooms| ==> ValidRoom(rooms[k])
    requires |rooms| <= |turns| + 1
    requires forall k :: 0 <= k < |corridors| ==> Interior(corridors[k].from) && Interior(corridors[k].to)
    ensures forall c :: Dug(rooms, turns, corridors, c) ==> Interior(c)
    ensures BorderIsWall(DigLevel(rooms, turns, corridors))
  {
    ValidRoomsInterior(rooms);
    forall c | Dug(rooms, turns, corridors, c)
      ensures Interior(c)
    {
      if LinkedFrom(rooms, turns, 0, c) {
        var k :| 0 <= k < |rooms| - 1 && OnCorridor(Centre(rooms[k]), Centre(rooms[k + 1]), turns[k], c);
        CorridorInterior(Centre(rooms[k]), Centre(rooms[k + 1]), turns[k]);
      } else if OnExtra(corridors, 0, c) {
        var k :| 0 <= k < |corridors| && OnCorridor(corridors[k].from, corridors[k].to, true, c);
        CorridorInterior(corridors[k].from, corridors[k].to, true);
      }
    }
  }

  /** Every cell of every room, and both ends of every extra corridor, are floor. */
  lemma DigLevelFloor(rooms: seq<Room>, turns: seq<bool>, corridors: seq<CorridorDraw>)
    requires forall k :: 0 <= k < |rooms| ==> ValidRoom(rooms[k])
    requires |rooms| <= |turns| + 1
    requires forall k :: 0 <= k < |corridors| ==> Interior(corridors[k].from) && Interior(corridors[k].to)
    ensures var g := DigLevel(rooms, turns, corridors);
      && (forall k, c :: 0 <= k < |rooms| && Contains(rooms[k], c) ==> IsFloor(g, c))
      && (forall k :: 0 <= k < |corridors| ==> IsFloor(g, corridors[k].from) && IsFloor(g, corridors[k].to))
  {
    var g := DigLevel(rooms, turns, corridors);
    ValidRoomsInterior(rooms);
    forall k, c | 0 <= k < |rooms| && Contains(rooms[k], c)
      ensures IsFloor(g, c)
    {
      assert InSomeRoom(rooms, c);
    }
    forall k | 0 <= k < |corridors|
      ensures IsFloor(g, corridors[k].from) && IsFloor(g, corridors[k].to)
    {
      CorridorInterior(corridors[k].from, corridors[k].to, true);
      assert OnExtra(corridors, 0, corridors[k].from) && OnExtra(corridors, 0, corridors[k].to);
    }
  }

  /** Every room centre can reach every other over floor. */
  lemma DigLevelConnected(rooms: seq<Room>, turns: seq<bool>, corridors: seq<CorridorDraw>)
    requires forall k :: 0 <= k < |rooms| ==> ValidRoom(rooms[k])
    requires |rooms| <= |turns| + 1
    requires forall k :: 0 <= k < |corridors| ==> Interior(corridors[k].from) && Interior(corridors[k].to)
    ensures forall k :: 0 <= k < |rooms| ==> Interior(Centre(rooms[k]))
    ensures var g := DigLevel(rooms, turns, corridors);
      forall j, k :: 0 <= j < |rooms| && 0 <= k < |rooms| ==>
        Reachable(g, Centre(rooms[j]), Centre(rooms[k]))
  {
    var g := DigLevel(rooms, turns, corridors);
    DigLevelBorder(rooms, turns, corridors);
    forall c | LinkedFrom(rooms, turns, 0, c)
      ensures IsFloor(g, c)
    {
      assert Dug(rooms, turns, corridors, c);
    }
    LinksReachable(g, rooms, turns);
    if 0 < |rooms| {
      assert Contains(rooms[0], Centre(rooms[0]));
      assert Dug(rooms, turns, corridors, Centre(rooms[0]));
      ChainReachesAll(g, rooms);
    }
  }

  /** One enemy per drawn cell, with the level's stats. */
  function EnemiesAt(cells: seq<Cell>, level: int): (es: seq<Enemy>)
    ensures |es| == |cells|
    ensures forall i :: 0 <= i < |cells| ==> es[i] == NewEnemy(cells[i], level)
  {
    seq(|cells|, i requires 0 <= i < |cells| => NewEnemy(cells[i], level))
  }

  /** The enemies of all middle rooms, room by room. */
  function SpawnEnemies(level: int, stock: seq<Stock>): (es: seq<Enemy>)
    ensures forall e :: e in es ==>
      e == NewEnemy(e.pos, level) && exists k :: 0 <= k < |stock| && e.pos in stock[k].enemies
    ensures forall k, i :: 0 <= k < |stock| && 0 <= i < |stock[k].enemies| ==>
      NewEnemy(stock[k].enemies[i], level) in es
    ensures |es| == EnemyDraws(stock)
    decreases |stock|
  {
    if |stock| == 0 then []
    else
      var here := EnemiesAt(stock[0].enemies, level);
      var rest := SpawnEnemies(level, stock[1..]);
      assert forall e :: e in rest ==> exists k :: 0 <= k < |stock| && e.pos in stock[k].enemies by {
        forall e | e in rest
          ensures exists k :: 0 <= k < |stock| && e.pos in stock[k].enemies
        {
          var k :| 0 <= k < |stock[1..]| && e.pos in stock[1..][k].enemies;
          assert stock[1..][k] == stock[k + 1];
        }
      }
      assert forall e :: e in here ==> e.pos in stock[0].enemies by {
        forall e | e in here
          ensures e.pos in stock[0].enemies
        {
          var i :| 0 <= i < |here| && here[i] == e;
        }
      }
      assert forall k, i :: 0 <= k < |stock| && 0 <= i < |stock[k].enemies| ==>
        NewEnemy(stock[k].enemies[i], level) in here + rest by {
        forall k, i | 0 <= k < |stock| && 0 <= i < |stock[k].enemies|
          ensures NewEnemy(stock[k].enemies[i], level) in here + rest
        {
          if k == 0 {
            assert here[i] == NewEnemy(stock[0].enemies[i], level);
          } else {
            assert stock[1..][k - 1] == stock[k];
            assert NewEnemy(stock[1..][k - 1].enemies[i], level) in rest;
          }
        }
      }
      here + rest
  }

  /** How many enemy cells were drawn over all the rooms. */
  function EnemyDraws(stock: seq<Stock>): nat {
    if |stock| == 0 then 0 else |stock[0].enemies| + EnemyDraws(stock[1..])
  }

  /** How many times `c` was drawn as an enemy cell, over all the rooms. */
  function Drawn(stock: seq<Stock>, c: Cell): nat {
    if |stock| == 0 then 0 else multiset(stock[0].enemies)[c] + Drawn(stock[1..], c)
  }

  /** One enemy per draw of a cell: a cell drawn n times holds n enemies. */
  lemma {:induction false} EnemiesAtCopies(cells: seq<Cell>, level: int, c: Cell)
    ensures multiset(EnemiesAt(cells, level))[NewEnemy(c, level)] == multiset(cells)[c]
    decreases |cells|
  {
    if |cells| > 0 {
      EnemiesAtCons(cells, level);
      assert cells == [cells[0]] + cells[1..];
      assert (NewEnemy(cells[0], level) == NewEnemy(c, level)) == (cells[0] == c);
      EnemiesAtCopies(cells[1..], level, c);
    }
  }

  /** The enemies of a non-empty run of cells: the first cell's, then the rest's. */
  lemma EnemiesAtCons(cells: seq<Cell>, level: int)
    requires 0 < |cells|
    ensures EnemiesAt(cells, level) == [NewEnemy(cells[0], level)] + EnemiesAt(cells[1..], level)
  {
    var es, tail := EnemiesAt(cells, level), EnemiesAt(cells[1..], level);
    assert es[1..] == tail by {
      assert forall i :: 0 <= i < |tail| ==> es[1..][i] == tail[i];
    }
    assert es == [es[0]] + es[1..];
  }

  /** Over all the rooms, a cell drawn n times holds exactly n enemies with
      the level's stats. */
  lemma {:induction false} SpawnEnemiesCopies(level: int, stock: seq<Stock>, c: Cell)
    ensures multiset(SpawnEnemies(level, stock))[NewEnemy(c, level)] == Drawn(stock, c)
    decreases |stock|
  {
    if |stock| > 0 {
      EnemiesAtCopies(stock[0].enemies, level, c);
      SpawnEnemiesCopies(level, stock[1..], c);
    }
  }

  /** Where an enemy stands. */
  function EnemyAt(e: Enemy): Cell { e.pos }

  /** Where an item lies. */
  function ItemAt(it: Item): Cell { it.pos }

  /** How many of `xs` lie strictly inside `room`, `at` giving each one's cell. */
  function CountInside<T>(xs: seq<T>, at: T -> Cell, room: Room): (n: nat)
    ensures n <= |xs|
  {
    if |xs| == 0 then 0
    else (if StrictlyInside(room, at(xs[0])) then 1 else 0) + CountInside(xs[1..], at, room)
  }

  lemma {:induction false} CountInsideAppend<T>(a: seq<T>, b: seq<T>, at: T -> Cell, room: Room)
    ensures CountInside(a + b, at, room) == CountInside(a, at, room) + CountInside(b, at, room)
    decreases |a|
  {
    if |a| > 0 {
      assert (a + b)[0] == a[0] && (a + b)[1..] == a[1..] + b;
      CountInsideAppend(a[1..], b, at, room);
    } else {
      assert a + b == b;
    }
  }

  /** A run all inside the room counts in full; one with none inside counts zero. */
  lemma {:induction false} CountInsideAllOrNone<T>(xs: seq<T>, at: T -> Cell, room: Room)
    ensures (forall i :: 0 <= i < |xs| ==> StrictlyInside(room, at(xs[i]))) ==> CountInside(xs, at, room) == |xs|
    ensures (forall i :: 0 <= i < |xs| ==> !StrictlyInside(room, at(xs[i]))) ==> CountInside(xs, at, room) == 0
    decreases |xs|
  {
    if |xs| > 0 {
      CountInsideAllOrNone(xs[1..], at, room);
      assert forall i :: 1 <= i < |xs| ==> xs[1..][i - 1] == xs[i];
    }
  }

  /** When only the `k`-th stock drew cells inside `room`, all of them there,
      the spawned enemies inside `room` are exactly that stock's. */
  lemma {:induction false} SpawnedInside(level: int, stock: seq<Stock>, room: Room, k: int)
    requires 0 <= k < |stock| ==> forall i :: 0 <= i < |stock[k].enemies| ==> StrictlyInside(room, stock[k].enemies[i])
    requires forall j, i :: 0 <= j < |stock| && j != k && 0 <= i < |stock[j].enemies| ==>
      !StrictlyInside(room, stock[j].enemies[i])
    ensures CountInside(SpawnEnemies(level, stock), EnemyAt, room) == if 0 <= k < |stock| then |stock[k].enemies| else 0
    decreases |stock|
  {
    if |stock| > 0 {
      var here := EnemiesAt(stock[0].enemies, level);
      var rest := SpawnEnemies(level, stock[1..]);
      assert forall j :: 1 <= j < |stock| ==> stock[1..][j - 1] == stock[j];
      SpawnedInside(level, stock[1..], room, k - 1);
      CountInsideAppend(here, rest, EnemyAt, room);
      assert forall i :: 0 <= i < |here| ==> EnemyAt(here[i]) == stock[0].enemies[i];
      CountInsideAllOrNone(here, EnemyAt, room);
    }
  }

  /** Each middle room contributes between one and `most` enemies. */
  lemma {:induction false} SpawnEnemiesCount(level: int, stock: seq<Stock>, most: int)
    requires forall k :: 0 <= k < |stock| ==> 1 <= |stock[k].enemies| <= most
    ensures |stock| <= |SpawnEnemies(level, stock)| <= |stock| * most
    decreases |stock|
  {
    if |stock| > 0 {
      SpawnEnemiesCount(level, stock[1..], most);
      assert |SpawnEnemies(level, stock)| == |stock[0].enemies| + |SpawnEnemies(level, stock[1..])|;
      assert (|stock| - 1) * most + most == |stock| * most;
    }
  }

  /** The items of all middle rooms whose item chance succeeded. */
  function SpawnItems(stock: seq<Stock>): (items: seq<Item>)
    ensures |items| == ItemDraws(stock) <= |stock|
    ensures forall it :: it in items ==>
      exists k :: 0 <= k < |stock| && stock[k].item == Some(ItemDraw(it.pos, it.kind))
    ensures forall k :: 0 <= k < |stock| && stock[k].item.Some? ==>
      Item(stock[k].item.value.pos, stock[k].item.value.kind) in items
    decreases |stock|
  {
    if |stock| == 0 then []
    else
      var rest := SpawnItems(stock[1..]);
      assert forall k :: 1 <= k < |stock| ==> stock[k] == stock[1..][k - 1];
      match stock[0].item
      case None => rest
      case Some(draw) => [Item(draw.pos, draw.kind)] + rest
  }

  /** How many rooms' item chance succeeded. */
  function ItemDraws(stock: seq<Stock>): (n: nat)
    ensures n <= |stock|
  {
    if |stock| == 0 then 0 else (if stock[0].item.Some? then 1 else 0) + ItemDraws(stock[1..])
  }

  /** When only the `k`-th stock may have drawn an item inside `room`, and its
      item if any is there, the items spawned inside `room` are that one item
      or none. */
  lemma {:induction false} SpawnedItemsInside(stock: seq<Stock>, room: Room, k: int)
    requires 0 <= k < |stock| && stock[k].item.Some? ==> StrictlyInside(room, stock[k].item.value.pos)
    requires forall j :: 0 <= j < |stock| && j != k && stock[j].item.Some? ==>
      !StrictlyInside(room, stock[j].item.value.pos)
    ensures CountInside(SpawnItems(stock), ItemAt, room) == if 0 <= k < |stock| && stock[k].item.Some? then 1 else 0
    decreases |stock|
  {
    if |stock| > 0 {
      assert forall j :: 1 <= j < |stock| ==> stock[1..][j - 1] == stock[j];
      SpawnedItemsInside(stock[1..], room, k - 1);
      var rest := SpawnItems(stock[1..]);
      match stock[0].item
      case None =>
      case Some(draw) =>
        assert ([Item(draw.pos, draw.kind)] + rest)[1..] == rest;
    }
  }

  /** In disjoint rooms, a middle room holds exactly the item drawn for it, if
      its item chance succeeded, and no other. */
  lemma StockedRoomItems(level: int, rooms: seq<Room>, stock: seq<Stock>, k: int)
    requires Disjoint(rooms) && StockFits(level, rooms, stock)
    requires 0 <= k < |stock|
    ensures CountInside(SpawnItems(stock), ItemAt, MiddleRooms(rooms)[k]) == if stock[k].item.Some? then 1 else 0
  {
    var middle := MiddleRooms(rooms);
    assert ValidStock(level, middle[k], stock[k]);
    forall j | 0 <= j < |stock| && j != k && stock[j].item.Some?
      ensures !StrictlyInside(middle[k], stock[j].item.value.pos)
    {
      var c := stock[j].item.value.pos;
      assert ValidStock(level, middle[j], stock[j]);
      assert Contains(rooms[j + 1], c);
      DisjointRoomsShareNoCell(rooms, j + 1, k + 1, c);
    }
    SpawnedItemsInside(stock, middle[k], k);
  }

  /** The obstacle loop: a drawn cell becomes an obstacle when it is floor and
      holds no obstacle yet. */
  function PlaceObstacles(g: Grid, placed: set<Cell>, draws: seq<Cell>): (r: set<Cell>)
    requires WellFormed(g)
    ensures r == placed + set c | c in draws && IsFloor(g, c)
    decreases |draws|
  {
    if |draws| == 0 then placed
    else
      var c := draws[0];
      var next := if IsFloor(g, c) && c !in placed then placed + {c} else placed;
      var r := PlaceObstacles(g, next, draws[1..]);
      assert (set c | c in draws && IsFloor(g, c))
        == (if IsFloor(g, c) then {c} else {}) + set c | c in draws[1..] && IsFloor(g, c);
      r
  }

  lemma {:induction false} DrawnFloorCount(g: Grid, draws: seq<Cell>)
    requires WellFormed(g)
    ensures |set c | c in draws && IsFloor(g, c)| <= |draws|
    decreases |draws|
  {
    if |draws| > 0 {
      var c := draws[0];
      DrawnFloorCount(g, draws[1..]);
      assert (set c | c in draws && IsFloor(g, c))
        == (if IsFloor(g, c) then {c} else {}) + set c | c in draws[1..] && IsFloor(g, c);
    }
  }

  /** One call of the generator. The grid is `DigLevel`, which `CarveLevel`
      shows to be exactly what the carving loops build. */
  function Generate(level: int, d: Draws): (dg: Dungeon)
    requires ValidDraws(level, d)
    ensures WellFormed(dg.grid)
    ensures 0 < |dg.rooms|
    ensures dg.player == NewPlayer(dg.player.pos)
  {
    AcceptedRooms(d.candidates);
    var rooms := Accepted(d.candidates);
    var grid := DigLevel(rooms, d.turns, d.corridors);
    var first := rooms[0];
    var last := rooms[|rooms| - 1];
    Dungeon(
      grid,
      rooms,
      NewPlayer(Cell(first.x + 1, first.y + 1)),
      Cell(last.x + last.w - 2, last.y + last.h - 2),
      SpawnEnemies(level, d.stock),
      SpawnItems(d.stock),
      PlaceObstacles(grid, {}, d.obstacles))
  }

  /** The room list: the first candidate is always kept, at most one room per
      candidate, every room within its draw ranges, no two rooms overlapping. */
  lemma GeneratedRooms(level: int, d: Draws)
    requires ValidDraws(level, d)
    ensures var rooms := Generate(level, d).rooms;
      && 1 <= |rooms| <= 7 + level
      && rooms[0] == d.candidates[0]
      && (forall k :: 0 <= k < |rooms| ==> ValidRoom(rooms[k]))
      && Disjoint(rooms)
  {
    AcceptedRooms(d.candidates);
  }

  /** The grid: the outer ring is wall and every cell of every room is floor. */
  lemma GeneratedGrid(level: int, d: Draws)
    requires ValidDraws(level, d)
    ensures var dg := Generate(level, d);
      && BorderIsWall(dg.grid)
      && (forall k, c :: 0 <= k < |dg.rooms| && Contains(dg.rooms[k], c) ==> IsFloor(dg.grid, c))
  {
    AcceptedRooms(d.candidates);
    var rooms := Accepted(d.candidates);
    DigLevelBorder(rooms, d.turns, d.corridors);
    DigLevelFloor(rooms, d.turns, d.corridors);
  }

  /** Every room centre lies off the outer ring, and every pair of room
      centres is joined by a floor walk. */
  lemma GeneratedConnected(level: int, d: Draws)
    requires ValidDraws(level, d)
    ensures var dg := Generate(level, d);
      && (forall k :: 0 <= k < |dg.rooms| ==> Interior(Centre(dg.rooms[k])))
      && (forall j, k :: 0 <= j < |dg.rooms| && 0 <= k < |dg.rooms| ==>
            Reachable(dg.grid, Centre(dg.rooms[j]), Centre(dg.rooms[k])))
  {
    AcceptedRooms(d.candidates);
    DigLevelConnected(Accepted(d.candidates), d.turns, d.corridors);
  }

  /** Both ends of every extra corridor are floor and lie off the outer ring. */
  lemma GeneratedCorridorEnds(level: int, d: Draws)
    requires ValidDraws(level, d)
    ensures var dg := Generate(level, d);
      forall k :: 0 <= k < |d.corridors| ==>
        && IsFloor(dg.grid, d.corridors[k].from) && IsFloor(dg.grid, d.corridors[k].to)
        && Interior(d.corridors[k].from) && Interior(d.corridors[k].to)
  {
    AcceptedRooms(d.candidates);
    DigLevelFloor(Accepted(d.candidates), d.turns, d.corridors);
  }

  /** The player starts one cell in from the first room's top-left corner
      and the stairs sit one cell in from the last room's bottom-right corner:
      two different floor cells, even when there is only one room. */
  lemma GeneratedSpawns(level: int, d: Draws)
    requires ValidDraws(level, d)
    ensures var dg := Generate(level, d);
      var first := dg.rooms[0];
      var last := dg.rooms[|dg.rooms| - 1];
      && dg.player == NewPlayer(Cell(first.x + 1, first.y + 1))
      && StrictlyInside(first, dg.player.pos)
      && StrictlyInside(last, dg.stairs)
      && IsFloor(dg.grid, dg.player.pos) && IsFloor(dg.grid, dg.stairs)
      && Interior(dg.player.pos)
      && dg.player.pos != dg.stairs
  {
    var dg := Generate(level, d);
    GeneratedRooms(level, d);
    GeneratedGrid(level, d);
    var rooms := dg.rooms;
    var n := |rooms|;
    assert Contains(rooms[0], dg.player.pos);
    assert Contains(rooms[n - 1], dg.stairs);
    if n > 1 {
      DisjointRoomsShareNoCell(rooms, 0, n - 1, dg.player.pos);
    }
  }

  lemma SpawnedEnemiesPlacement(level: int, rooms: seq<Room>, stock: seq<Stock>)
    requires 0 < |rooms| && Disjoint(rooms) && StockFits(level, rooms, stock)
    ensures var n := |rooms|;
      forall e :: e in SpawnEnemies(level, stock) ==>
        && e.health == 30 + 10 * level && e.attack == 5 + 2 * level && e.cooldown == 0
        && (exists k :: 1 <= k < n - 1 && StrictlyInside(rooms[k], e.pos))
        && !Contains(rooms[0], e.pos) && !Contains(rooms[n - 1], e.pos)
  {
    var n := |rooms|;
    var middle := MiddleRooms(rooms);
    forall e | e in SpawnEnemies(level, stock)
      ensures e.health == 30 + 10 * level && e.attack == 5 + 2 * level && e.cooldown == 0
      ensures exists k :: 1 <= k < n - 1 && StrictlyInside(rooms[k], e.pos)
      ensures !Contains(rooms[0], e.pos) && !Contains(rooms[n - 1], e.pos)
    {
      assert e == NewEnemy(e.pos, level);
      var k :| 0 <= k < |stock| && e.pos in stock[k].enemies;
      var i :| 0 <= i < |stock[k].enemies| && stock[k].enemies[i] == e.pos;
      assert ValidStock(level, middle[k], stock[k]);
      assert StrictlyInside(rooms[k + 1], e.pos);
      DisjointRoomsShareNoCell(rooms, k + 1, 0, e.pos);
      DisjointRoomsShareNoCell(rooms, k + 1, n - 1, e.pos);
    }
  }

  lemma SpawnedItemsPlacement(level: int, rooms: seq<Room>, stock: seq<Stock>)
    requires 0 < |rooms| && Disjoint(rooms) && StockFits(level, rooms, stock)
    ensures var n := |rooms|;
      forall it :: it in SpawnItems(stock) ==>
        && (exists k :: 1 <= k < n - 1 && StrictlyInside(rooms[k], it.pos))
        && !Contains(rooms[0], it.pos) && !Contains(rooms[n - 1], it.pos)
  {
    var n := |rooms|;
    var middle := MiddleRooms(rooms);
    forall it | it in SpawnItems(stock)
      ensures exists k :: 1 <= k < n - 1 && StrictlyInside(rooms[k], it.pos)
      ensures !Contains(rooms[0], it.pos) && !Contains(rooms[n - 1], it.pos)
    {
      var k :| 0 <= k < |stock| && stock[k].item == Some(ItemDraw(it.pos, it.kind));
      assert ValidStock(level, middle[k], stock[k]);
      assert middle[k] == rooms[k + 1] && k + 1 < n - 1;
      assert StrictlyInside(rooms[k + 1], it.pos);
      DisjointRoomsShareNoCell(rooms, k + 1, 0, it.pos);
      DisjointRoomsShareNoCell(rooms, k + 1, n - 1, it.pos);
    }
  }

  /** Enemies appear only strictly inside the middle rooms, never in the
      first or the last room, with the level's stats. */
  lemma GeneratedEnemies(level: int, d: Draws)
    requires ValidDraws(level, d)
    ensures var dg := Generate(level, d);
      var n := |dg.rooms|;
      forall e :: e in dg.enemies ==>
        && e.health == 30 + 10 * level && e.attack == 5 + 2 * level && e.cooldown == 0
        && (exists k :: 1 <= k < n - 1 && StrictlyInside(dg.rooms[k], e.pos))
        && !Contains(dg.rooms[0], e.pos) && !Contains(dg.rooms[n - 1], e.pos)
  {
    AcceptedRooms(d.candidates);
    SpawnedEnemiesPlacement(level, Accepted(d.candidates), d.stock);
  }

  /** Each middle room holds one to 3 + level / 2 enemies. */
  lemma GeneratedEnemyCount(level: int, d: Draws)
    requires ValidDraws(level, d)
    ensures var dg := Generate(level, d);
      var middle := MiddleRooms(dg.rooms);
      && (forall k :: 0 <= k < |middle| ==> 1 <= CountInside(dg.enemies, EnemyAt, middle[k]) <= 3 + level / 2)
      && |middle| <= |dg.enemies| <= |middle| * (3 + level / 2)
  {
    AcceptedRooms(d.candidates);
    var rooms := Accepted(d.candidates);
    StockedEnemyCount(level, rooms, d.stock);
    forall k | 0 <= k < |MiddleRooms(rooms)|
      ensures 1 <= CountInside(SpawnEnemies(level, d.stock), EnemyAt, MiddleRooms(rooms)[k]) <= 3 + level / 2
    {
      StockedRoomCount(level, rooms, d.stock, k);
      assert ValidStock(level, MiddleRooms(rooms)[k], d.stock[k]);
    }
  }

  /** The enemies inside a middle room are exactly those drawn for it: rooms
      are disjoint, so no other room's draw lands there. */
  lemma StockedRoomCount(level: int, rooms: seq<Room>, stock: seq<Stock>, k: int)
    requires Disjoint(rooms) && StockFits(level, rooms, stock)
    requires 0 <= k < |stock|
    ensures CountInside(SpawnEnemies(level, stock), EnemyAt, MiddleRooms(rooms)[k]) == |stock[k].enemies|
  {
    var middle := MiddleRooms(rooms);
    assert ValidStock(level, middle[k], stock[k]);
    forall j, i | 0 <= j < |stock| && j != k && 0 <= i < |stock[j].enemies|
      ensures !StrictlyInside(middle[k], stock[j].enemies[i])
    {
      var c := stock[j].enemies[i];
      assert ValidStock(level, middle[j], stock[j]);
      assert Contains(rooms[j + 1], c);
      DisjointRoomsShareNoCell(rooms, j + 1, k + 1, c);
    }
    SpawnedInside(level, stock, middle[k], k);
  }

  lemma StockedEnemyCount(level: int, rooms: seq<Room>, stock: seq<Stock>)
    requires StockFits(level, rooms, stock)
    ensures |MiddleRooms(rooms)| <= |SpawnEnemies(level, stock)| <= |MiddleRooms(rooms)| * (3 + level / 2)
  {
    assert forall k :: 0 <= k < |stock| ==> ValidStock(level, MiddleRooms(rooms)[k], stock[k]);
    SpawnEnemiesCount(level, stock, 3 + level / 2);
  }

  /** Items appear only strictly inside the middle rooms, never in the first
      or the last room, at most one per middle room. */
  lemma GeneratedItems(level: int, d: Draws)
    requires ValidDraws(level, d)
    ensures var dg := Generate(level, d);
      var n := |dg.rooms|;
      && (forall it :: it in dg.items ==>
            && (exists k :: 1 <= k < n - 1 && StrictlyInside(dg.rooms[k], it.pos))
            && !Contains(dg.rooms[0], it.pos) && !Contains(dg.rooms[n - 1], it.pos))
      && |dg.items| <= |MiddleRooms(dg.rooms)|
      && forall k :: 0 <= k < |MiddleRooms(dg.rooms)| ==> CountInside(dg.items, ItemAt, MiddleRooms(dg.rooms)[k]) <= 1
  {
    AcceptedRooms(d.candidates);
    var rooms := Accepted(d.candidates);
    SpawnedItemsPlacement(level, rooms, d.stock);
    forall k | 0 <= k < |MiddleRooms(rooms)|
      ensures CountInside(SpawnItems(d.stock), ItemAt, MiddleRooms(rooms)[k]) <= 1
    {
      StockedRoomItems(level, rooms, d.stock, k);
    }
  }

  /** The obstacles are exactly the drawn cells that are floor: at most
      10 + 2 * level of them, none on the outer ring. Nothing keeps them off
      the player's start cell or the stairs. */
  lemma GeneratedObstacles(level: int, d: Draws)
    requires ValidDraws(level, d)
    ensures var dg := Generate(level, d);
      && (forall c :: c in dg.obstacles <==> c in d.obstacles && IsFloor(dg.grid, c))
      && (forall c :: c in dg.obstacles ==> Interior(c))
      && |dg.obstacles| <= 10 + 2 * level
      && (dg.stairs in d.obstacles ==> dg.stairs in dg.obstacles)
      && (dg.player.pos in d.obstacles ==> dg.player.pos in dg.obstacles)
  {
    var dg := Generate(level, d);
    DrawnFloorCount(dg.grid, d.obstacles);
    GeneratedSpawns(level, d);
    GeneratedGrid(level, d);
  }
}

=== FILE: grid.dfy ===
/** The tile grid of one dungeon level.

A grid holds ROWS rows of COLS tiles and is indexed `g[y][x]`, row first,
like the nested list the game builds. Every generation step only ever turns
walls into floor ("carving"); the carving functions below state their exact
effect in closed form, from which monotonicity follows.
 */
module Grid {

  const WIDTH: int := 800
  const HEIGHT: int := 600
  const GRID_SIZE: int := 20
  const COLS: int := WIDTH / GRID_SIZE
  const ROWS: int := HEIGHT / GRID_SIZE

  datatype Tile = Wall | Floor

  /** A grid coordinate: column `x`, row `y`. */
  datatype Cell = Cell(x: int, y: int)

  type Grid = seq<seq<Tile>>

  function Min(a: int, b: int): int { if a <= b then a else b }
  function Max(a: int, b: int): int { if a <= b then b else a }

  predicate InBounds(c: Cell) {
    0 <= c.x < COLS && 0 <= c.y < ROWS
  }

  /** Every cell except the outermost ring of the grid. */
  predicate Interior(c: Cell) {
    1 <= c.x <= COLS - 2 && 1 <= c.y <= ROWS - 2
  }

  predicate WellFormed(g: Grid) {
    |g| == ROWS && forall y :: 0 <= y < ROWS ==> |g[y]| == COLS
  }

  function At(g: Grid, c: Cell): Tile
    requires WellFormed(g) && InBounds(c)
  {
    g[c.y][c.x]
  }

  predicate IsFloor(g: Grid, c: Cell)
    requires WellFormed(g)
  {
    InBounds(c) && At(g, c) == Floor
  }

  /** No floor cell of `g` is a wall in `r`. */
  ghost predicate FloorGrows(g: Grid, r: Grid)
    requires WellFormed(g) && WellFormed(r)
  {
    forall c :: IsFloor(g, c) ==> IsFloor(r, c)
  }

  /** The outermost ring of the grid is wall. */
  ghost predicate BorderIsWall(g: Grid)
    requires WellFormed(g)
  {
    forall c :: InBounds(c) && !Interior(c) ==> At(g, c) == Wall
  }

  const WALL_ROW: seq<Tile> := seq(COLS, _ => Wall)

  /** The grid the generator starts from: wall everywhere. */
  function AllWalls(): (g: Grid)
    ensures WellFormed(g)
    ensures forall c :: InBounds(c) ==> At(g, c) == Wall
  {
    seq(ROWS, _ => WALL_ROW)
  }

  function CarveCell(g: Grid, c: Cell): (r: Grid)
    requires WellFormed(g) && InBounds(c)
    ensures WellFormed(r)
    ensures forall d :: InBounds(d) ==> At(r, d) == (if d == c then Floor else At(g, d))
  {
    g[c.y := g[c.y][c.x := Floor]]
  }

  /** Carves the cells (x, y) with lo <= x <= hi, left to right. */
  function CarveRow(g: Grid, y: int, lo: int, hi: int): (r: Grid)
    requires WellFormed(g) && 0 <= y < ROWS && 0 <= lo && hi < COLS
    ensures WellFormed(r)
    ensures forall c :: InBounds(c) ==>
      At(r, c) == (if c.y == y && lo <= c.x <= hi then Floor else At(g, c))
    ensures FloorGrows(g, r)
    decreases hi - lo
  {
    if lo > hi then g else CarveRow(CarveCell(g, Cell(lo, y)), y, lo + 1, hi)
  }

  /** Carves the cells (x, y) with lo <= y <= hi, top to bottom. */
  function CarveColumn(g: Grid, x: int, lo: int, hi: int): (r: Grid)
    requires WellFormed(g) && 0 <= x < COLS && 0 <= lo && hi < ROWS
    ensures WellFormed(r)
    ensures forall c :: InBounds(c) ==>
      At(r, c) == (if c.x == x && lo <= c.y <= hi then Floor else At(g, c))
    ensures FloorGrows(g, r)
    decreases hi - lo
  {
    if lo > hi then g else CarveColumn(CarveCell(g, Cell(x, lo)), x, lo + 1, hi)
  }

  /** Carves the `w` by `h` block whose top-left cell is (x, y), row by row. */
  function CarveBlock(g: Grid, x: int, y: int, w: int, h: int): (r: Grid)
    requires WellFormed(g)
    requires 0 <= x && 0 <= y && 0 <= w && 0 <= h && x + w <= COLS && y + h <= ROWS
    ensures WellFormed(r)
    ensures forall c :: InBounds(c) ==>
      At(r, c) == (if x <= c.x < x + w && y <= c.y < y + h then Floor else At(g, c))
    ensures FloorGrows(g, r)
    decreases h
  {
    if h == 0 then g else CarveBlock(CarveRow(g, y, x, x + w - 1), x, y + 1, w, h - 1)
  }

  /** Two grids that agree on every cell are the same grid. */
  lemma SameCells(a: Grid, b: Grid)
    requires WellFormed(a) && WellFormed(b)
    requires forall c :: InBounds(c) ==> At(a, c) == At(b, c)
    ensures a == b
  {
    forall y | 0 <= y < ROWS
      ensures a[y] == b[y]
    {
      forall x | 0 <= x < COLS
        ensures a[y][x] == b[y][x]
      {
        assert At(a, Cell(x, y)) == At(b, Cell(x, y));
      }
    }
  }

  lemma FloorGrowsTransitive(a: Grid, b: Grid, c: Grid)
    requires WellFormed(a) && WellFormed(b) && WellFormed(c)
    requires FloorGrows(a, b) && FloorGrows(b, c)
    ensures FloorGrows(a, c)
  {
  }
}

=== FILE: paths.dfy ===
/** Walks over floor cells and the reachability relation they induce.

A walk is a non-empty sequence of floor cells in which each cell is a
4-neighbour of the one before it. Walks are over the carved grid alone:
obstacles are not wall tiles of the grid, so a walk may cross a cell the
player cannot enter.
 */
module Paths {
  import opened Grid

  /** `a` and `b` differ by one step along exactly one axis. */
  predicate Adjacent(a: Cell, b: Cell) {
    || (a.x == b.x && (a.y + 1 == b.y || b.y + 1 == a.y))
    || (a.y == b.y && (a.x + 1 == b.x || b.x + 1 == a.x))
  }

  /** Consecutive cells of `p` are 4-neighbours. */
  predicate Steps(p: seq<Cell>) {
    forall i :: 0 < i < |p| ==> Adjacent(p[i - 1], p[i])
  }

  /** `p` is a walk over floor of `g` from `a` to `b`. */
  predicate Walk(g: Grid, p: seq<Cell>, a: Cell, b: Cell)
    requires WellFormed(g)
  {
    && 0 < |p|
    && p[0] == a
    && p[|p| - 1] == b
    && (forall i :: 0 <= i < |p| ==> IsFloor(g, p[i]))
    && Steps(p)
  }

  ghost predicate Reachable(g: Grid, a: Cell, b: Cell)
    requires WellFormed(g)
  {
    exists p :: Walk(g, p, a, b)
  }

  /** The straight line of cells from (x0, y) to (x1, y). */
  function RowLine(y: int, x0: int, x1: int): (p: seq<Cell>)
    ensures |p| == Max(x0, x1) - Min(x0, x1) + 1
    ensures p[0] == Cell(x0, y) && p[|p| - 1] == Cell(x1, y)
    ensures forall i :: 0 <= i < |p| ==> p[i].y == y && Min(x0, x1) <= p[i].x <= Max(x0, x1)
    ensures Steps(p)
  {
    if x0 <= x1 then seq(x1 - x0 + 1, k => Cell(x0 + k, y))
    else seq(x0 - x1 + 1, k => Cell(x0 - k, y))
  }

  /** The straight line of cells from (x, y0) to (x, y1). */
  function ColumnLine(x: int, y0: int, y1: int): (p: seq<Cell>)
    ensures |p| == Max(y0, y1) - Min(y0, y1) + 1
    ensures p[0] == Cell(x, y0) && p[|p| - 1] == Cell(x, y1)
    ensures forall i :: 0 <= i < |p| ==> p[i].x == x && Min(y0, y1) <= p[i].y <= Max(y0, y1)
    ensures Steps(p)
  {
    if y0 <= y1 then seq(y1 - y0 + 1, k => Cell(x, y0 + k))
    else seq(y0 - y1 + 1, k => Cell(x, y0 - k))
  }

  function Reverse(p: seq<Cell>): (r: seq<Cell>)
    ensures |r| == |p|
    ensures forall i :: 0 <= i < |p| ==> r[i] == p[|p| - 1 - i]
  {
    seq(|p|, i requires 0 <= i < |p| => p[|p| - 1 - i])
  }

  lemma WalkJoin(g: Grid, p: seq<Cell>, q: seq<Cell>, a: Cell, b: Cell, c: Cell)
    requires WellFormed(g)
    requires Walk(g, p, a, b) && Walk(g, q, b, c)
    ensures Walk(g, p + q[1..], a, c)
  {
    var s := p + q[1..];
    forall i | 0 < i < |s|
      ensures Adjacent(s[i - 1], s[i])
    {
      if i >= |p| {
        assert s[i] == q[i - |p| + 1];
        assert s[i - 1] == q[i - |p|];
      }
    }
    forall i | 0 <= i < |s|
      ensures IsFloor(g, s[i])
    {
      if i >= |p| {
        assert s[i] == q[i - |p| + 1];
      }
    }
  }

  lemma ReachableFromFloor(g: Grid, a: Cell)
    requires WellFormed(g) && IsFloor(g, a)
    ensures Reachable(g, a, a)
  {
    assert Walk(g, [a], a, a);
  }

  lemma {:induction false} ReachableTransitive(g: Grid, a: Cell, b: Cell, c: Cell)
    requires WellFormed(g)
    requires Reachable(g, a, b) && Reachable(g, b, c)
    ensures Reachable(g, a, c)
  {
    var p :| Walk(g, p, a, b);
    var q :| Walk(g, q, b, c);
    WalkJoin(g, p, q, a, b, c);
  }

  lemma {:induction false} ReachableSymmetric(g: Grid, a: Cell, b: Cell)
    requires WellFormed(g)
    requires Reachable(g, a, b)
    ensures Reachable(g, b, a)
  {
    var p :| Walk(g, p, a, b);
    var r := Reverse(p);
    forall i | 0 < i < |r|
      ensures Adjacent(r[i - 1], r[i])
    {
      assert r[i - 1] == p[|p| - 1 - (i - 1)];
      assert r[i] == p[|p| - 1 - i];
      assert Adjacent(p[|p| - 1 - i], p[|p| - i]);
    }
    assert Walk(g, r, b, a);
  }

  /** A fully carved stretch of row connects its two ends. */
  lemma RowReachable(g: Grid, y: int, x0: int, x1: int)
    requires WellFormed(g)
    requires forall x :: Min(x0, x1) <= x <= Max(x0, x1) ==> IsFloor(g, Cell(x, y))
    ensures Reachable(g, Cell(x0, y), Cell(x1, y))
  {
    var p := RowLine(y, x0, x1);
    forall i | 0 <= i < |p|
      ensures IsFloor(g, p[i])
    {
      assert p[i] == Cell(p[i].x, y);
    }
    assert Walk(g, p, Cell(x0, y), Cell(x1, y));
  }

  /** A fully carved stretch of column connects its two ends. */
  lemma ColumnReachable(g: Grid, x: int, y0: int, y1: int)
    requires WellFormed(g)
    requires forall y :: Min(y0, y1) <= y <= Max(y0, y1) ==> IsFloor(g, Cell(x, y))
    ensures Reachable(g, Cell(x, y0), Cell(x, y1))
  {
    var p := ColumnLine(x, y0, y1);
    forall i | 0 <= i < |p|
      ensures IsFloor(g, p[i])
    {
      assert p[i] == Cell(x, p[i].y);
    }
    assert Walk(g, p, Cell(x, y0), Cell(x, y1));
  }
}

=== FILE: rooms.dfy ===
/** Rectangular rooms: the candidate ranges, the strict overlap test and the
greedy placement loop that keeps every candidate clashing with no room kept
before it.
 */
module Rooms {
  import opened Grid

  const MIN_ROOM_SIZE: int := 5
  const MAX_ROOM_SIZE: int := 8

  /** A room's top-left cell is (x, y); it spans `w` columns and `h` rows. */
  datatype Room = Room(x: int, y: int, w: int, h: int)

  /** The ranges of the four draws that produce a candidate room: width and
      height in [5, 8], then x in [1, COLS - w - 1] and y in [1, ROWS - h - 1]. */
  predicate ValidRoom(r: Room) {
    && MIN_ROOM_SIZE <= r.w <= MAX_ROOM_SIZE
    && MIN_ROOM_SIZE <= r.h <= MAX_ROOM_SIZE
    && 1 <= r.x <= COLS - r.w - 1
    && 1 <= r.y <= ROWS - r.h - 1
  }

  predicate Contains(r: Room, c: Cell) {
    r.x <= c.x < r.x + r.w && r.y <= c.y < r.y + r.h
  }

  /** Cells of the room not on its outer ring: where spawns may be drawn. */
  predicate StrictlyInside(r: Room, c: Cell) {
    r.x + 1 <= c.x <= r.x + r.w - 2 && r.y + 1 <= c.y <= r.y + r.h - 2
  }

  /** The cell the connecting corridors start and end at. */
  function Centre(r: Room): Cell {
    Cell(r.x + r.w / 2, r.y + r.h / 2)
  }

  /** The game's overlap test: both axis projections intersect strictly. */
  predicate Overlaps(a: Room, b: Room) {
    a.x < b.x + b.w && a.x + a.w > b.x && a.y < b.y + b.h && a.y + a.h > b.y
  }

  predicate OverlapsAny(rooms: seq<Room>, cand: Room) {
    exists i :: 0 <= i < |rooms| && Overlaps(cand, rooms[i])
  }

  predicate Disjoint(rooms: seq<Room>) {
    forall i, j :: 0 <= i < j < |rooms| ==> !Overlaps(rooms[i], rooms[j])
  }

  /** One iteration of the placement loop. */
  function Admit(rooms: seq<Room>, cand: Room): seq<Room> {
    if OverlapsAny(rooms, cand) then rooms else rooms + [cand]
  }

  /** The placement loop over the remaining candidates `cands`, with `rooms`
      already accepted. */
  function PlaceRooms(rooms: seq<Room>, cands: seq<Room>): (r: seq<Room>)
    ensures |rooms| <= |r| <= |rooms| + |cands|
    ensures r[..|rooms|] == rooms
    ensures forall i :: |rooms| <= i < |r| ==> r[i] in cands
    ensures Disjoint(rooms) ==> Disjoint(r)
    decreases |cands|
  {
    if |cands| == 0 then rooms
    else
      var next := Admit(rooms, cands[0]);
      var r := PlaceRooms(next, cands[1..]);
      assert r[..|rooms|] == next[..|rooms|][..|rooms|];
      r
  }

  /** Every candidate is either kept or overlaps a kept room, and a first
      candidate that overlaps no room kept so far is kept next. */
  lemma {:induction false} PlaceRoomsDecides(rooms: seq<Room>, cands: seq<Room>)
    ensures var r := PlaceRooms(rooms, cands);
      && (forall k :: 0 <= k < |cands| ==> cands[k] in r || OverlapsAny(r, cands[k]))
      && (0 < |cands| && !OverlapsAny(rooms, cands[0]) ==> |rooms| < |r| && r[|rooms|] == cands[0])
    decreases |cands|
  {
    if |cands| > 0 {
      var r := PlaceRooms(rooms, cands);
      var next := Admit(rooms, cands[0]);
      PlaceRoomsDecides(next, cands[1..]);
      assert r[..|next|] == next;
      if OverlapsAny(rooms, cands[0]) {
        var i :| 0 <= i < |rooms| && Overlaps(cands[0], rooms[i]);
        assert r[i] == rooms[i];
      } else {
        assert r[|rooms|] == next[|rooms|];
      }
      assert forall k :: 1 <= k < |cands| ==> cands[k] == cands[1..][k - 1];
    }
  }

  /** The greedy first-fit rule: running the loop over one more candidate
      admits that candidate exactly when it overlaps none of the rooms the
      earlier candidates left, and otherwise changes nothing. */
  lemma {:induction false} PlaceRoomsSnoc(rooms: seq<Room>, cands: seq<Room>, c: Room)
    ensures PlaceRooms(rooms, cands + [c]) == Admit(PlaceRooms(rooms, cands), c)
    decreases |cands|
  {
    if |cands| > 0 {
      assert (cands + [c])[1..] == cands[1..] + [c];
      PlaceRoomsSnoc(Admit(rooms, cands[0]), cands[1..], c);
    }
  }

  /** Candidate k is kept exactly when it overlaps no room kept from the
      candidates before it, and it is then the next room of the list. */
  lemma PlaceRoomsKeeps(rooms: seq<Room>, cands: seq<Room>, k: int)
    requires 0 <= k < |cands|
    ensures var before := PlaceRooms(rooms, cands[..k]);
      var after := PlaceRooms(rooms, cands[..k + 1]);
      && (!OverlapsAny(before, cands[k]) ==> after == before + [cands[k]])
      && (OverlapsAny(before, cands[k]) ==> after == before)
  {
    assert cands[..k + 1] == cands[..k] + [cands[k]];
    PlaceRoomsSnoc(rooms, cands[..k], cands[k]);
  }

  /** Accepted rooms of a placement that starts empty. */
  function Accepted(cands: seq<Room>): seq<Room> {
    PlaceRooms([], cands)
  }

  lemma AcceptedRooms(cands: seq<Room>)
    requires forall k :: 0 <= k < |cands| ==> ValidRoom(cands[k])
    ensures var rooms := Accepted(cands);
      && (0 < |cands| ==> 1 <= |rooms| && rooms[0] == cands[0])
      && |rooms| <= |cands|
      && (forall i :: 0 <= i < |rooms| ==> ValidRoom(rooms[i]))
      && Disjoint(rooms)
  {
    var rooms := Accepted(cands);
    PlaceRoomsDecides([], cands);
    forall i | 0 <= i < |rooms|
      ensures ValidRoom(rooms[i])
    {
      assert rooms[i] in cands;
    }
  }

  /** The strict overlap test holds exactly when the two rooms share a cell. */
  lemma OverlapIffSharedCell(a: Room, b: Room)
    requires 0 < a.w && 0 < a.h && 0 < b.w && 0 < b.h
    ensures Overlaps(a, b) <==> exists c :: Contains(a, c) && Contains(b, c)
  {
    if Overlaps(a, b) {
      var c := Cell(Max(a.x, b.x), Max(a.y, b.y));
      assert Contains(a, c) && Contains(b, c);
    }
  }

  /** Two different accepted rooms share no cell. */
  lemma DisjointRoomsShareNoCell(rooms: seq<Room>, i: int, j: int, c: Cell)
    requires Disjoint(rooms)
    requires 0 <= i < |rooms| && 0 <= j < |rooms| && i != j
    requires Contains(rooms[i], c)
    ensures !Contains(rooms[j], c)
  {
    if i < j {
      assert !Overlaps(rooms[i], rooms[j]);
    } else {
      assert !Overlaps(rooms[j], rooms[i]);
    }
  }
}
